=== FILE: README.md ===
# VeloDetect indicator engine and OHLCV model, in Dafny

This project models the two pure components of VeloDetect:

- **The OHLCV data model.** `OHLCVBar` validates one bar's price ordering and
  volume at construction time. `OHLCVData` holds a list of bars, lays them out
  as a frame of parallel columns and reports its length.
- **The indicator engine `TechnicalIndicators`.** It is built over an OHLCV
  frame and computes, column by column:
  - moving averages: SMA and EMA;
  - momentum indicators: ROC, momentum, RSI, Williams %R, the stochastic
    oscillator and MACD;
  - volatility indicators: Bollinger bands and ATR;
  - volume indicators: volume SMA, OBV and volume velocity;
  - price velocity;
  - the table of nine boolean velocity signals.

A pandas column is a `Column = seq<Option<real>>`, where `None` stands for
NaN. Arithmetic is exact over `real`:

- NaN propagates through `+`, `-`, `*`, `/` and `abs`.
- A comparison involving NaN is false.
- A division by zero is undefined (`None`).

The pandas operations the engine relies on are modelled with their own
semantics:

- `rolling(window=p)` uses the default `min_periods=p`, so a window is defined
  only when it fits and holds no NaN. `std` uses the sample convention
  (`ddof=1`).
- `ewm(span=p, adjust=False)` is seeded with the first observation.
- `shift` and `pct_change` are modelled directly.
- `ffill` fills each NaN with the last observed value before it.
- `max(axis=1)` skips NaN.

Modules:

| module | file | contents |
|---|---|---|
| `Wrappers` | wrappers.dfy | `Option`, `Result` |
| `Algebra` | algebra.dfy | real-arithmetic identities behind the formulas |
| `Stats` | stats.dfy | sum, mean, max, min and sample variance of one window |
| `Columns` | columns.dfy | NaN-aware element operations, `shift`, `ffill`, trailing windows |
| `Frames` | frames.dfy | a frame: row index plus named columns; frame-wide `ffill` |
| `Ohlcv` | ohlcv.dfy | `OHLCVBar` validation, `OHLCVData.to_dataframe`, `len` |
| `Rolling` | rolling.dfy | rolling mean, max, min and std |
| `Exponential` | ewm.dfy | the exponential moving average recurrence |
| `TechnicalIndicators` | indicators.dfy | the engine, its constructor and every indicator |
| `MomentumLaws` | momentum_laws.dfy | ROC, momentum, price velocity, RSI |
| `OscillatorLaws` | oscillator_laws.dfy | Williams %R, stochastic, MACD |
| `VolatilityLaws` | volatility_laws.dfy | Bollinger bands, ATR |
| `VolumeLaws` | volume_laws.dfy | volume velocity, OBV |
| `VelocitySignals` | signals.dfy | `detect_velocity_signals` |
| `Pipeline` | pipeline.dfy | bars, then their frame, then the engine |

Behaviour of the code worth noting:

- **RSI of a flat series.** A flat close has zero average gain and zero
  average loss. The code then computes `0 / 0`, so its RSI is NaN, not 100
  (`MomentumLaws.RsiOfFlatCloses`). A loss of zero with a positive gain does
  give 100.
- **Signals at NaN.** The signal flags are `False` where their indicator is
  NaN, not undefined. This is the pandas comparison semantics
  (`VelocitySignals.FlagsAreFalseWhereUndefined`).
- **Empty frames.** `to_dataframe` on an empty bar list keeps `timestamp` as
  one of six columns. With bars, `timestamp` becomes the index and five
  columns remain.
- **RSI warm-up.** The RSI is defined from bar `p - 1`, not `p`. The first
  price change is NaN, but the filter that splits changes into gains and
  losses turns it into 0 (`MomentumLaws.RsiCases`).

## Model

Paths are relative to the repository root.

| member | source | states |
|---|---|---|
| Ohlcv.NewBar | velodetect/src/velodetect/model/ohlcv.py:19-28 | a bar is accepted iff high >= low, high >= open, high >= close, low <= open, low <= close and volume >= 0; high < low is reported as such before anything else; a negative volume is reported exactly when all ordering checks pass |
| Ohlcv.NewBarFirstViolationWins | velodetect/src/velodetect/model/ohlcv.py:21-26 | the high-vs-open/close error is reported iff high >= low and that check fails; the low-vs-open/close error iff both earlier checks pass and it fails |
| Ohlcv.AcceptedBarIsInsideItsRange | velodetect/src/velodetect/model/ohlcv.py:21-26 | an accepted bar has low <= open <= high, low <= close <= high and high - low >= 0 |
| Ohlcv.RejectedBarExamples | velodetect/src/velodetect/model/ohlcv.py:21-28 | high=10 with low=20 is rejected as high below low; volume=-5 is rejected as negative volume |
| Ohlcv.ToDataFrame | velodetect/src/velodetect/model/ohlcv.py:39-54 | no bars: zero rows and the six column names including timestamp; otherwise the timestamps become the index, five price columns remain, and row i of each holds bars[i]'s field, in bar order |
| Ohlcv.Project | velodetect/src/velodetect/model/ohlcv.py:44-51 | a projected column has one observed entry per bar, equal to that bar's field |
| Ohlcv.Timestamps | velodetect/src/velodetect/model/ohlcv.py:45-53 | the index lists each bar's timestamp in order |
| Ohlcv.Length | velodetect/src/velodetect/model/ohlcv.py:56-58 | the length of the data is the number of rows of its frame, that is, the number of bars |
| Pipeline.EngineFromData | velodetect/src/velodetect/model/ohlcv.py:39-54 | the engine accepts the frame of a bar list iff the list is non-empty, rejects the empty one as empty, and sees every bar's fields unchanged, one row per bar |
| Pipeline.ValidatedBarsGiveValidRows | velodetect/src/velodetect/model/ohlcv.py:19-28 | the frame of non-empty validated bars gives an engine whose every row is observed and meets the bar invariants |
| TechnicalIndicators.New | velodetect/src/velodetect/indicator/technical_indicators.py:9-32 | construction succeeds iff all five OHLCV columns are present and the frame has rows; a missing column is reported before emptiness; on success every column is the forward fill of the input column and has no NaN after its first observation |
| Frames.FfillFrame | velodetect/src/velodetect/indicator/technical_indicators.py:30-32 | the frame's forward fill keeps its index and column names and forward-fills each column on its own |
| Frames.FfillFrameWithoutNaN | velodetect/src/velodetect/indicator/technical_indicators.py:30-32 | a frame without NaN is unchanged by forward fill |
| Columns.LastObserved | velodetect/src/velodetect/indicator/technical_indicators.py:32 | the value carried to position i is x[i] when observed, undefined iff nothing up to i is observed, and otherwise the latest observed value with only NaNs after it |
| Columns.Ffill | velodetect/src/velodetect/indicator/technical_indicators.py:32 | forward fill keeps the length and puts the last observed value at each position |
| Columns.FfillLeavesNoInteriorGaps | velodetect/src/velodetect/indicator/technical_indicators.py:32 | after a forward fill only a leading run of NaNs can remain |
| Columns.FfillWithoutNaN | velodetect/src/velodetect/indicator/technical_indicators.py:30-32 | a column without NaN is unchanged by forward fill |
| Columns.FfillKeepsObserved | velodetect/src/velodetect/indicator/technical_indicators.py:32 | observed values are kept; a filled entry is NaN iff nothing before it was observed |
| Columns.FfillFixesGapless | velodetect/src/velodetect/indicator/technical_indicators.py:32 | a column with no interior NaN is a fixed point of forward fill |
| Columns.NoneStaysBehind | velodetect/src/velodetect/indicator/technical_indicators.py:32 | in a column with no interior gaps, a NaN at i means NaN at every position up to i |
| Columns.FfillIdempotent | velodetect/src/velodetect/indicator/technical_indicators.py:32 | forward filling twice is forward filling once |
| Columns.Shift | velodetect/src/velodetect/indicator/technical_indicators.py:88 | shifting by p keeps the length, puts NaN at the first p positions and x[i-p] at position i |
| Columns.Window | velodetect/src/velodetect/indicator/technical_indicators.py:52 | the trailing window of p values ending at i is defined iff 1 <= p <= i+1 and none of those p values is NaN, and then lists them in order |
| Rolling.MeanAt | velodetect/src/velodetect/indicator/technical_indicators.py:52 | the rolling mean at i is defined exactly when its window is |
| Rolling.RollingMean | velodetect/src/velodetect/indicator/technical_indicators.py:52 | the rolling mean keeps the length and is the per-position window mean |
| Rolling.RollingMeanWarmUp | velodetect/src/velodetect/indicator/technical_indicators.py:38-52 | for p >= 1, on a column without NaN, SMA(p) is undefined exactly at the indices below p-1 |
| Rolling.RollingMeanIsWindowMean | velodetect/src/velodetect/indicator/technical_indicators.py:52 | where the p values ending at i are observed, SMA(p) at i is their mean |
| Rolling.RollingMeanBetweenMinAndMax | velodetect/src/velodetect/indicator/technical_indicators.py:52 | the rolling mean, max and min are defined at the same positions, and there min <= mean <= max |
| Rolling.RollingMeanWithin | velodetect/src/velodetect/indicator/technical_indicators.py:52 | values bounded by lo and hi over the window give a rolling mean between lo and hi |
| Rolling.RollingMeanNonNegative | velodetect/src/velodetect/indicator/technical_indicators.py:52 | a column with no negative value has no negative rolling mean |
| Rolling.RollingMeanPositive | velodetect/src/velodetect/indicator/technical_indicators.py:52 | with no negative values and a positive newest value the rolling mean is positive |
| Rolling.RollingMeanExample | velodetect/src/velodetect/indicator/technical_indicators.py:38-52 | SMA(3) of 1,2,3,4,5 is NaN, NaN, 2, 3, 4 |
| Rolling.MaxAt | velodetect/src/velodetect/indicator/technical_indicators.py:132 | the rolling max is defined exactly when its window is, bounds every value of the window and is one of them |
| Rolling.RollingMax | velodetect/src/velodetect/indicator/technical_indicators.py:132 | the rolling max keeps the length and is the per-position window max |
| Rolling.MinAt | velodetect/src/velodetect/indicator/technical_indicators.py:133 | the rolling min is defined exactly when its window is, is below every value of the window and is one of them |
| Rolling.RollingMin | velodetect/src/velodetect/indicator/technical_indicators.py:133 | the rolling min keeps the length and is the per-position window min |
| Rolling.StdAt | velodetect/src/velodetect/indicator/technical_indicators.py:190 | the sample standard deviation is defined iff the window is and p >= 2, and is then the root of the window's sample variance |
| Rolling.RollingStd | velodetect/src/velodetect/indicator/technical_indicators.py:190 | the rolling std keeps the length and is the per-position sample deviation |
| Rolling.RollingStdNonNegative | velodetect/src/velodetect/indicator/technical_indicators.py:190 | the rolling std is never negative where defined |
| Rolling.RollingStdOfOne | velodetect/src/velodetect/indicator/technical_indicators.py:190 | with window 1 the sample deviation is undefined at every position |
| Rolling.RollingStdIsWindowDeviation | velodetect/src/velodetect/indicator/technical_indicators.py:190 | where the p >= 2 values ending at i are observed, the rolling std at i is the root of their sample variance |
| Rolling.RollingStdExample | velodetect/src/velodetect/indicator/technical_indicators.py:190 | the rolling std with window 2 of 1, 3 is NaN, sqrt(2): the squared deviations are divided by p - 1 |
| Stats.MaxOf | velodetect/src/velodetect/indicator/technical_indicators.py:132 | the max of a non-empty window bounds every element and is one of them |
| Stats.MinOf | velodetect/src/velodetect/indicator/technical_indicators.py:133 | the min of a non-empty window is below every element and is one of them |
| Stats.SampleVariance | velodetect/src/velodetect/indicator/technical_indicators.py:190 | the sample variance of two or more values is never negative, and times n-1 (not n) gives the sum of squared deviations from the mean |
| TechnicalIndicators.Sma | velodetect/src/velodetect/indicator/technical_indicators.py:38-52 | an unknown column is an error naming it; otherwise the rolling mean of that column with window period, one value per row |
| TechnicalIndicators.Ema | velodetect/src/velodetect/indicator/technical_indicators.py:54-68 | an unknown column is an error naming it; otherwise the exponential average of that column with span period, one value per row |
| Exponential.Alpha | velodetect/src/velodetect/indicator/technical_indicators.py:68 | the smoothing factor 2/(span+1) lies in (0, 1] |
| Exponential.EmaAt | velodetect/src/velodetect/indicator/technical_indicators.py:68 | the average at i is undefined iff no value up to i is observed |
| Exponential.Ewm | velodetect/src/velodetect/indicator/technical_indicators.py:68 | the exponential average keeps the length and runs the recurrence at every position |
| Exponential.EwmRecurrence | velodetect/src/velodetect/indicator/technical_indicators.py:54-68 | ema[0] = x[0]; ema[t] = alpha*x[t] + (1-alpha)*ema[t-1] with alpha = 2/(span+1); a NaN input carries the previous average |
| Exponential.EwmHasNoWarmUp | velodetect/src/velodetect/indicator/technical_indicators.py:54-68 | with an observed first value the EMA is defined at every index |
| Exponential.EmaWithin | velodetect/src/velodetect/indicator/technical_indicators.py:68 | the EMA stays within any bounds on the values it has seen |
| Exponential.EwmOfConstant | velodetect/src/velodetect/indicator/technical_indicators.py:54-68 | a constant column has that constant as its EMA |
| TechnicalIndicators.MomentumOf | velodetect/src/velodetect/indicator/technical_indicators.py:104 | momentum is undefined at indices below p and is x[i] - x[i-p] from p on |
| TechnicalIndicators.RocOf | velodetect/src/velodetect/indicator/technical_indicators.py:88 | ROC is undefined below p and, from p on, defined iff x[i] and x[i-p] are observed and x[i-p] is non-zero |
| TechnicalIndicators.PctChangeOf | velodetect/src/velodetect/indicator/technical_indicators.py:263 | the percent change is undefined below p and, from p on, defined iff x[i] and x[i-p] are observed and x[i-p] is non-zero |
| TechnicalIndicators.PriceVelocity | velodetect/src/velodetect/indicator/technical_indicators.py:253-263 | price_velocity(p) is undefined for the first p bars and from bar p on is defined iff both closes are observed and the earlier one is non-zero |
| TechnicalIndicators.Roc | velodetect/src/velodetect/indicator/technical_indicators.py:74-88 | an unknown column is an error naming it; otherwise the ROC of that column over period bars, one value per row |
| TechnicalIndicators.Momentum | velodetect/src/velodetect/indicator/technical_indicators.py:90-104 | an unknown column is an error naming it; otherwise the momentum of that column over period bars, one value per row |
| MomentumLaws.RocIsRelativeMomentum | velodetect/src/velodetect/indicator/technical_indicators.py:88-104 | ROC(p) at i is momentum(p) at i divided by x[i-p], times 100, and is defined exactly when that quotient is |
| MomentumLaws.PercentChangeOfValues | velodetect/src/velodetect/indicator/technical_indicators.py:263 | for single values, (a/b - 1) and (a-b)/b*100 are defined together, and the first times 100 is the second |
| MomentumLaws.PctChangeIsRocOverHundred | velodetect/src/velodetect/indicator/technical_indicators.py:263 | the percent change and ROC are defined at the same positions, and the percent change times 100 is the ROC |
| MomentumLaws.PriceVelocityIsRocOverHundred | velodetect/src/velodetect/indicator/technical_indicators.py:253-263 | price_velocity(p) times 100 is roc(p) of the close, at the same defined positions |
| MomentumLaws.PriceVelocityIsRelativeChange | velodetect/src/velodetect/indicator/technical_indicators.py:253-263 | where price_velocity(p) is defined at bar i, (value + 1) * close[i-p] = close[i] |
| MomentumLaws.RocExample | velodetect/src/velodetect/indicator/technical_indicators.py:74-88 | ROC(1) of 100, 110 is NaN, 10 |
| TechnicalIndicators.Rise | velodetect/src/velodetect/indicator/technical_indicators.py:117 | the kept rise is always observed, at least 0 and at least the change, and is either 0 or the change itself (the larger of the change and 0); NaN gives 0 |
| TechnicalIndicators.Fall | velodetect/src/velodetect/indicator/technical_indicators.py:118 | the kept fall is always observed, at least 0 and at least minus the change, and is either 0 or minus the change (the larger of the two); NaN gives 0 |
| MomentumLaws.RiseMinusFall | velodetect/src/velodetect/indicator/technical_indicators.py:116-118 | an observed change equals its kept rise minus its kept fall, and at most one of them is non-zero |
| TechnicalIndicators.Gains | velodetect/src/velodetect/indicator/technical_indicators.py:116-117 | the gain series is defined at every bar: 0 at the first bar, the rise x[i] - x[i-1] when the value rose, 0 otherwise (NaN included) |
| TechnicalIndicators.Losses | velodetect/src/velodetect/indicator/technical_indicators.py:116-118 | the loss series is defined at every bar: 0 at the first bar, the fall x[i-1] - x[i] when the value fell, 0 otherwise (NaN included) |
| MomentumLaws.RsiWarmUp | velodetect/src/velodetect/indicator/technical_indicators.py:116-120 | the RSI is undefined at the first p-1 bars |
| TechnicalIndicators.RsiValue | velodetect/src/velodetect/indicator/technical_indicators.py:119-120 | the RSI of two averages is defined only when both are; with a zero average loss it is 100 if the average gain is non-zero and NaN if it is zero |
| TechnicalIndicators.Rsi | velodetect/src/velodetect/indicator/technical_indicators.py:106-120 | rsi(p) has one value per row, at each row the RSI of the rolling mean gain and the rolling mean loss of that row |
| MomentumLaws.RsiValueCases | velodetect/src/velodetect/indicator/technical_indicators.py:119-120 | for non-negative averages: both zero gives NaN; zero loss with positive gain gives 100; otherwise 100*g/(g+l) in [0, 100] |
| MomentumLaws.RsiCases | velodetect/src/velodetect/indicator/technical_indicators.py:106-120 | the RSI at each bar: undefined during the p-1 warm-up; from bar p-1 both averages are defined and non-negative, and the value is NaN, 100 or 100*g/(g+l) by the case above |
| MomentumLaws.RsiBounded | velodetect/src/velodetect/indicator/technical_indicators.py:106-120 | the RSI lies in [0, 100] wherever it is defined |
| MomentumLaws.RsiOfRisingCloses | velodetect/src/velodetect/indicator/technical_indicators.py:116-120 | for p >= 2, strictly rising closes give RSI 100 from bar p-1 on |
| MomentumLaws.RsiOfFlatCloses | velodetect/src/velodetect/indicator/technical_indicators.py:116-120 | a flat close gives an undefined RSI everywhere |
| OscillatorLaws.PercentROfValues | velodetect/src/velodetect/indicator/technical_indicators.py:134 | for single values, %R and %K are defined together and %R = %K - 100 |
| OscillatorLaws.PercentKOfValues | velodetect/src/velodetect/indicator/technical_indicators.py:149 | with low <= close <= high, %K is defined iff high > low and then lies in [0, 100] |
| TechnicalIndicators.PercentR | velodetect/src/velodetect/indicator/technical_indicators.py:134 | %R of single values is defined iff the highest high, lowest low and close are observed and high != low, and then %R * (high - low) = -100 * (high - close) |
| TechnicalIndicators.PercentK | velodetect/src/velodetect/indicator/technical_indicators.py:149 | %K of single values is defined iff the highest high, lowest low and close are observed and high != low, and then %K * (high - low) = 100 * (close - low) |
| TechnicalIndicators.WilliamsR | velodetect/src/velodetect/indicator/technical_indicators.py:122-134 | Williams %R has one value per row: %R of the window's highest high, lowest low and that row's close, hence defined iff those are observed and the window is not flat |
| TechnicalIndicators.StochasticK | velodetect/src/velodetect/indicator/technical_indicators.py:147-149 | %K has one value per row: %K of the window's highest high, lowest low and that row's close, hence defined iff those are observed and the window is not flat |
| TechnicalIndicators.StochasticOscillator | velodetect/src/velodetect/indicator/technical_indicators.py:136-152 | the first series is %K(k_period) and the second its rolling mean over d_period |
| OscillatorLaws.WilliamsRIsStochasticKMinusHundred | velodetect/src/velodetect/indicator/technical_indicators.py:122-152 | williams_r(p) and %K(p) are defined at the same bars, and williams_r = %K - 100 |
| OscillatorLaws.StochasticBounds | velodetect/src/velodetect/indicator/technical_indicators.py:132-149 | over valid bars %K is defined iff highest high and lowest low are and highest high > lowest low; %K is in [0, 100] and %R in [-100, 0] |
| OscillatorLaws.StochasticDBounded | velodetect/src/velodetect/indicator/technical_indicators.py:150 | over valid bars %D lies in [0, 100] wherever defined |
| TechnicalIndicators.Macd | velodetect/src/velodetect/indicator/technical_indicators.py:154-172 | the MACD line is the fast EMA minus the slow EMA of the close, the signal is the EMA of the line over signal_period, and the histogram is line minus signal, row by row |
| OscillatorLaws.MacdStartsAtZero | velodetect/src/velodetect/indicator/technical_indicators.py:154-172 | with an observed first close, MACD line, signal and histogram are 0 at index 0 |
| OscillatorLaws.MacdHasNoWarmUp | velodetect/src/velodetect/indicator/technical_indicators.py:154-172 | with an observed first close all three MACD lines are defined at every bar |
| OscillatorLaws.MacdOfConstantClose | velodetect/src/velodetect/indicator/technical_indicators.py:154-172 | a constant close makes MACD line, signal and histogram 0 everywhere |
| VolatilityLaws.BandOfValues | velodetect/src/velodetect/indicator/technical_indicators.py:191-192 | for single values, m + sd*k and m - sd*k are defined iff m and sd are, are symmetric around m, and are ordered for sd, k >= 0 |
| VolatilityLaws.BollingerMiddleIsSma | velodetect/src/velodetect/indicator/technical_indicators.py:189 | the middle band is sma(period) of the close |
| VolatilityLaws.BollingerBandsSymmetric | velodetect/src/velodetect/indicator/technical_indicators.py:178-194 | the outer bands are defined exactly where the rolling std is; upper - middle = middle - lower; for std_dev >= 0, upper >= middle >= lower |
| VolatilityLaws.BollingerBandsOfPeriodOne | velodetect/src/velodetect/indicator/technical_indicators.py:190-192 | with period 1 both outer bands are undefined everywhere |
| TechnicalIndicators.BollingerBands | velodetect/src/velodetect/indicator/technical_indicators.py:178-194 | the middle band is the rolling mean of the close; the upper and lower bands are the middle band plus and minus std_dev times the rolling standard deviation, row by row |
| VolatilityLaws.BollingerBandsOfWindow | velodetect/src/velodetect/indicator/technical_indicators.py:178-194 | over a fully observed window w of closes: middle = mean(w), upper = mean(w) + std_dev * sqrt(sample variance of w), lower = mean(w) - std_dev * sqrt(sample variance of w) |
| TechnicalIndicators.MaxSkipNaN | velodetect/src/velodetect/indicator/technical_indicators.py:210 | the row max is NaN iff both values are, and otherwise the larger observed one |
| TechnicalIndicators.TrueRange | velodetect/src/velodetect/indicator/technical_indicators.py:206-210 | the true range is defined wherever high and low are and is at least high - low; from the second bar on it is at least the absolute distance of high and of low from the previous close and equals one of those three candidates, so where all three are defined it is their maximum; at the first bar it is high - low |
| VolatilityLaws.TrueRangeCoversSpread | velodetect/src/velodetect/indicator/technical_indicators.py:206-210 | the true range is defined wherever high and low are and is at least high - low; at the first bar it is exactly high - low |
| TechnicalIndicators.Atr | velodetect/src/velodetect/indicator/technical_indicators.py:196-211 | ATR at each row is the rolling mean of the true range over period |
| VolatilityLaws.AtrOfWindow | velodetect/src/velodetect/indicator/technical_indicators.py:196-211 | over a fully observed window w of true ranges ATR is mean(w) |
| VolatilityLaws.AtrNonNegative | velodetect/src/velodetect/indicator/technical_indicators.py:196-211 | over valid bars ATR is defined iff 1 <= period <= i+1, and then is never negative |
| TechnicalIndicators.VolumeSma | velodetect/src/velodetect/indicator/technical_indicators.py:217-227 | volume_sma(p) is sma(p) of the volume column and never fails |
| TechnicalIndicators.VolumeVelocity | velodetect/src/velodetect/indicator/technical_indicators.py:265-276 | volume velocity is defined at a row iff the volume and its moving average are observed and the average is non-zero |
| VolumeLaws.RatioOfValues | velodetect/src/velodetect/indicator/technical_indicators.py:276 | for single values, a/b is defined iff both are and b is non-zero; the ratio times b is a, and is non-negative for non-negative a and b |
| VolumeLaws.VolumeVelocityIsRatio | velodetect/src/velodetect/indicator/technical_indicators.py:265-276 | volume velocity is defined iff the volume SMA is defined and non-zero, and then times the SMA gives back the volume |
| VolumeLaws.VolumeVelocityNonNegative | velodetect/src/velodetect/indicator/technical_indicators.py:265-276 | over valid bars volume velocity is never negative |
| TechnicalIndicators.ObvAt | velodetect/src/velodetect/indicator/technical_indicators.py:237-245 | the recursive OBV is defined at bar i whenever every volume up to i is |
| TechnicalIndicators.Obv | velodetect/src/velodetect/indicator/technical_indicators.py:236-247 | OBV has one value per row, starts at the first volume and at every bar is the recursive OBV step |
| TechnicalIndicators.ObvScan | velodetect/src/velodetect/indicator/technical_indicators.py:229-247 | the left-to-right loop with a running total computes the recursive OBV at every bar |
| VolumeLaws.ObvIsPrefixSum | velodetect/src/velodetect/indicator/technical_indicators.py:236-245 | OBV at i is the first volume plus each later volume signed by the close's move: added on a rise, subtracted on a fall, nothing when flat |
| VolumeLaws.ObvOfFlatClose | velodetect/src/velodetect/indicator/technical_indicators.py:239-245 | a constant close keeps OBV at the first volume |
| VolumeLaws.ObvOfRisingClose | velodetect/src/velodetect/indicator/technical_indicators.py:239-241 | strictly rising closes with positive volumes make OBV strictly increasing |
| VelocitySignals.DetectVelocitySignals | velodetect/src/velodetect/indicator/technical_indicators.py:278-315 | all nine flag columns have one entry per row |
| VelocitySignals.FlagsReadTheirIndicators | velodetect/src/velodetect/indicator/technical_indicators.py:291-313 | strong_upward iff ROC(14) > threshold, strong_downward iff ROC(14) < -threshold, overbought iff RSI > 70, oversold iff RSI < 30, high_volume iff volume velocity > multiplier, above/below band iff the close is strictly beyond the band, each requiring the values to be defined |
| VelocitySignals.RocLineIsRoc | velodetect/src/velodetect/indicator/technical_indicators.py:292 | the momentum flags read roc(14) of the close |
| VelocitySignals.MacdFlagsFollowTheLine | velodetect/src/velodetect/indicator/technical_indicators.py:306-308 | macd_bullish holds iff the line is above the signal, and macd_bearish iff it is below, both false where either is NaN |
| VelocitySignals.OppositeFlagsExclusive | velodetect/src/velodetect/indicator/technical_indicators.py:291-313 | never both strong-up and strong-down for a threshold >= 0, never both overbought and oversold, never both MACD flags, never both band flags for a non-negative square root |
| VelocitySignals.FlagsAreFalseWhereUndefined | velodetect/src/velodetect/indicator/technical_indicators.py:291-313 | every flag is false where the indicator it reads is undefined |
| VelocitySignals.IndicatorsWarmUp | velodetect/src/velodetect/indicator/technical_indicators.py:292-311 | the indicators the signals read are undefined during warm-up: ROC(14) before bar 14, RSI(14) before bar 13, volume velocity(20) and the 20-bar bands before bar 19 |
| VelocitySignals.WarmUpFlagsAreFalse | velodetect/src/velodetect/indicator/technical_indicators.py:291-313 | the flags are false during warm-up: ROC(14) before bar 14, RSI(14) before bar 13, volume velocity and bands before bar 19 |

## Left out

- Division by zero. pandas gives ±inf (or NaN for 0/0) where the model gives
  "undefined". The exception is the RSI, where a zero average loss saturates
  at 100 as the code's float arithmetic does. One consequence: at an infinite
  ROC, for example a zero close followed by a positive one, the code raises
  `strong_upward_momentum` but the model's flag is false. The same holds for
  infinite volume velocity and for %R/%K over a flat window.
- IEEE floating point. Prices are exact reals, so rounding is not modelled. A
  Python NaN in a bar field passes every validation comparison, but reals
  have no NaN, so that case is not modelled either.
- Exponential.Ewm: pandas' `adjust=False` recurrence re-weights the next
  observation after an interior NaN. The model instead carries the average
  forward unchanged. The engine only ever averages forward-filled columns and
  the MACD line built from them, and neither has interior NaNs, so this path
  is not reached.
- TechnicalIndicators.Ema: a span below 1 makes pandas raise. It is excluded
  by the precondition `period >= 1` rather than modelled as an error.
- TechnicalIndicators.Macd: likewise, each of its three spans must be at least
  1 (precondition), where pandas would raise.
- TechnicalIndicators.PctChangeOf: pandas' `pct_change` pads NaN forward
  before dividing (the default `fill_method='pad'`); the model does not. The
  two differ only on a column with an interior NaN, and the close the engine
  passes has none after `ffill`.
- Negative periods are excluded by `nat`. pandas does not reject them: a
  negative `shift` looks ahead, so `roc`, `momentum` and `price_velocity`
  with a negative period compare each value with a later one. The rolling
  and exponential indicators raise on them. A window of 0 is modelled as
  undefined everywhere.
- `sqrt` in the rolling standard deviation is a function parameter. Ordering
  results assume only that it is non-negative on non-negative arguments
  (`Rolling.IsRoot`).
- VelocitySignals.DetectVelocitySignals: its own contract only gives the
  lengths. When each flag holds is stated by FlagsReadTheirIndicators and
  MacdFlagsFollowTheLine.
- TechnicalIndicators.PriceVelocity: its own contract gives warm-up and
  definedness; the value law (r + 1) * earlier close = close is
  MomentumLaws.PriceVelocityIsRelativeChange.
- TechnicalIndicators.VolumeVelocity: its own contract gives definedness; the
  value law velocity * SMA = volume is VolumeLaws.VolumeVelocityIsRatio.
- The `print` warning in the constructor. The frame's copy is not modelled
  separately, since all values are immutable.
- Timestamps are integers, and the pandas index is a plain sequence. Dates,
  time zones and index alignment are not modelled.
- velodetect/src/velodetect/data/fetch_ohlcv_dataframe.py is not part of this
  model: it is a network fetch loop over an exchange library.
- velodetect/src/velodetect/main.py, docs/conf.py and backend/ are not part of
  this model: they are a printing demo, documentation configuration and web
  and storage glue.

=== FILE: algebra.dfy ===
/** Small facts about real products and quotients that the solver does not find alone. */
module Algebra {

  lemma ProductNonNegative(x: real, y: real)
    requires x >= 0.0 && y >= 0.0
    ensures x * y >= 0.0
  {
  }

  lemma DivIsUnique(a: real, d: real, q: real)
    requires d != 0.0 && q * d == a
    ensures q == a / d
  {
    var r := a / d;
    assert r * d == a;
    assert (q - r) * d == 0.0;
  }

  lemma DivBetween(a: real, d: real, lo: real, hi: real)
    requires d > 0.0 && d * lo <= a <= d * hi
    ensures lo <= a / d <= hi
  {
    var m := a / d;
    assert m * d == a;
    assert (m - lo) * d >= 0.0;
    assert (hi - m) * d >= 0.0;
  }

  /** `(a / b - 1) * 100 == (a - b) / b * 100`: percent change two ways. */
  lemma PercentChange(a: real, b: real)
    requires b != 0.0
    ensures (a / b - 1.0) * 100.0 == (a - b) / b * 100.0
  {
    var q := a / b;
    assert q * b == a;
    assert (q - 1.0) * b == a - b;
    DivIsUnique(a - b, b, q - 1.0);
  }

  /** `100 - 100 / (1 + g / l) == 100 * g / (g + l)`, and that lies in [0, 100]. */
  lemma RsiRatio(g: real, l: real)
    requires g >= 0.0 && l > 0.0
    ensures 1.0 + g / l > 0.0
    ensures 100.0 - 100.0 / (1.0 + g / l) == 100.0 * g / (g + l)
    ensures 0.0 <= 100.0 * g / (g + l) <= 100.0
  {
    var q := g / l;
    assert q * l == g;
    DivBetween(g, l, 0.0, g / l);
    var d := 1.0 + q;
    assert d * l == l + g;
    var s := 100.0 / d;
    assert s * d == 100.0;
    assert s * (g + l) == s * d * l;
    DivIsUnique(100.0 * l, g + l, s);
    assert (100.0 - s) * (g + l) == 100.0 * g;
    DivIsUnique(100.0 * g, g + l, 100.0 - s);
    DivBetween(100.0 * g, g + l, 0.0, 100.0);
  }

  /** `(hh - c) / d * -100 == (c - ll) / d * 100 - 100` when `d == hh - ll`. */
  lemma WilliamsFromStochastic(hh: real, ll: real, c: real)
    requires hh - ll != 0.0
    ensures (hh - c) / (hh - ll) * -100.0 == (c - ll) / (hh - ll) * 100.0 - 100.0
  {
    var d := hh - ll;
    var k := (c - ll) / d;
    assert k * d == c - ll;
    assert (1.0 - k) * d == hh - c;
    DivIsUnique(hh - c, d, 1.0 - k);
  }
}

=== FILE: columns.dfy ===
/**
  One column of a price frame as a sequence of optional reals. `None` is
  pandas' NaN: it propagates through arithmetic, and it makes every
  comparison false.
 */
module Columns {
  import opened Wrappers

  type Column = seq<Option<real>>

  // ---------------------------------------------------------------------------
  // NaN-propagating element arithmetic
  // ---------------------------------------------------------------------------

  function Add(a: Option<real>, b: Option<real>): Option<real>
  {
    if a.Some? && b.Some? then Some(a.value + b.value) else None
  }

  function Sub(a: Option<real>, b: Option<real>): Option<real>
  {
    if a.Some? && b.Some? then Some(a.value - b.value) else None
  }

  function Scale(a: Option<real>, k: real): Option<real>
  {
    if a.Some? then Some(a.value * k) else None
  }

  /** A zero divisor gives pandas' +-inf or NaN, which the model keeps undefined. */
  function Div(a: Option<real>, b: Option<real>): Option<real>
  {
    if a.Some? && b.Some? && b.value != 0.0 then Some(a.value / b.value) else None
  }

  function AbsValue(v: real): real
  {
    if v < 0.0 then -v else v
  }

  function Abs(a: Option<real>): Option<real>
  {
    if a.Some? then Some(AbsValue(a.value)) else None
  }

  /** pandas' `>` on floats: false whenever either side is NaN. */
  predicate Greater(a: Option<real>, b: Option<real>)
  {
    a.Some? && b.Some? && a.value > b.value
  }

  /** pandas' `<` on floats: false whenever either side is NaN. */
  predicate Less(a: Option<real>, b: Option<real>)
  {
    a.Some? && b.Some? && a.value < b.value
  }

  predicate AllObserved(x: Column)
  {
    forall i :: 0 <= i < |x| ==> x[i].Some?
  }

  /** Every value observed, each above the one before. */
  predicate StrictlyRising(x: Column)
  {
    && AllObserved(x)
    && forall k :: 1 <= k < |x| ==> x[k - 1].value < x[k].value
  }

  // ---------------------------------------------------------------------------
  // shift
  // ---------------------------------------------------------------------------

  /** `Series.shift(p)`: `p` NaNs in front, then the column without its last `p` entries. */
  function Shift(x: Column, p: nat): (r: Column)
    ensures |r| == |x|
    ensures forall i :: 0 <= i < |r| && i < p ==> r[i].None?
    ensures forall i :: p <= i < |r| ==> r[i] == x[i - p]
  {
    seq(|x|, i requires 0 <= i < |x| => if i < p then None else x[i - p])
  }

  // ---------------------------------------------------------------------------
  // forward fill
  // ---------------------------------------------------------------------------

  /** The most recent observed value at or before `i`, if any. */
  function LastObserved(x: Column, i: nat): (r: Option<real>)
    requires i < |x|
    ensures x[i].Some? ==> r == x[i]
    ensures r.None? <==> forall j :: 0 <= j <= i ==> x[j].None?
    ensures r.Some? ==> exists j :: 0 <= j <= i && x[j] == r && forall k :: j < k <= i ==> x[k].None?
  {
    if x[i].Some? then x[i]
    else if i == 0 then None
    else LastObserved(x, i - 1)
  }

  /** `Series.ffill()`: each NaN takes the last observed value before it. */
  function Ffill(x: Column): (r: Column)
    ensures |r| == |x|
    ensures forall i :: 0 <= i < |x| ==> r[i] == LastObserved(x, i)
  {
    seq(|x|, i requires 0 <= i < |x| => LastObserved(x, i))
  }

  /** Once a value has been observed, no later entry is NaN. */
  predicate NoInteriorGaps(x: Column)
  {
    forall i :: 1 <= i < |x| && x[i - 1].Some? ==> x[i].Some?
  }

  /** After a forward fill only a leading run of NaNs can remain. */
  lemma FfillLeavesNoInteriorGaps(x: Column)
    ensures NoInteriorGaps(Ffill(x))
  {
    var r := Ffill(x);
    forall i | 1 <= i < |x| && r[i - 1].Some?
      ensures r[i].Some?
    {
      assert r[i - 1] == LastObserved(x, i - 1);
    }
  }

  /** Forward fill changes nothing in a column without NaNs. */
  lemma FfillWithoutNaN(x: Column)
    requires AllObserved(x)
    ensures Ffill(x) == x
  {
  }

  /** Forward fill keeps every observed value and never invents a leading one. */
  lemma FfillKeepsObserved(x: Column, i: nat)
    requires i < |x|
    ensures x[i].Some? ==> Ffill(x)[i] == x[i]
    ensures Ffill(x)[i].None? <==> forall j :: 0 <= j <= i ==> x[j].None?
  {
  }

  /** A column without interior gaps is left as it is by forward fill. */
  lemma {:induction false} FfillFixesGapless(x: Column)
    requires NoInteriorGaps(x)
    ensures Ffill(x) == x
  {
    var r := Ffill(x);
    forall i | 0 <= i < |x|
      ensures r[i] == x[i]
    {
      if x[i].None? {
        NoneStaysBehind(x, i);
      }
    }
  }

  lemma {:induction false} NoneStaysBehind(x: Column, i: nat)
    requires NoInteriorGaps(x) && i < |x| && x[i].None?
    ensures forall j :: 0 <= j <= i ==> x[j].None?
  {
    if i > 0 {
      assert x[i - 1].None?;
      NoneStaysBehind(x, i - 1);
    }
  }

  /** Forward filling twice is the same as forward filling once. */
  lemma FfillIdempotent(x: Column)
    ensures Ffill(Ffill(x)) == Ffill(x)
  {
    FfillLeavesNoInteriorGaps(x);
    FfillFixesGapless(Ffill(x));
  }

  // ---------------------------------------------------------------------------
  // trailing windows
  // ---------------------------------------------------------------------------

  /** The values of a stretch of a column, or `None` if any of them is NaN. */
  function Observed(s: Column): (r: Option<seq<real>>)
    ensures r.Some? <==> AllObserved(s)
    ensures r.Some? ==> |r.value| == |s| && forall k :: 0 <= k < |s| ==> s[k] == Some(r.value[k])
  {
    if |s| == 0 then Some([])
    else
      match Observed(s[..|s| - 1])
      case None => None
      case Some(w) =>
        if s[|s| - 1].Some? then Some(w + [s[|s| - 1].value]) else None
  }

  /**
    The trailing window of `p` observations ending at `i`, as pandas'
    `rolling(window=p)` sees it with its default `min_periods=p`: defined only
    when the window fits and holds no NaN.
   */
  function Window(x: Column, i: nat, p: nat): (w: Option<seq<real>>)
    requires i < |x|
    ensures w.Some? <==> 1 <= p <= i + 1 && forall k :: i - p < k <= i ==> x[k].Some?
    ensures w.Some? ==> |w.value| == p && forall k :: 0 <= k < p ==> x[i + 1 - p + k] == Some(w.value[k])
  {
    if p == 0 || i + 1 < p then None
    else
      var s := x[i + 1 - p .. i + 1];
      assert forall k :: i - p < k <= i ==> x[k] == s[k - (i + 1 - p)];
      Observed(s)
  }

  /** The last entry of a defined window is the column's value at `i`. */
  lemma WindowEndsAt(x: Column, i: nat, p: nat)
    requires i < |x| && Window(x, i, p).Some?
    ensures x[i] == Some(Window(x, i, p).value[p - 1])
  {
    var k := p - 1;
    assert x[i + 1 - p + k] == Some(Window(x, i, p).value[k]);
  }
}

=== FILE: ewm.dfy ===
/**
  pandas' `ewm(span=p, adjust=False).mean()`: the exponential recurrence
  `e[t] = alpha * x[t] + (1 - alpha) * e[t-1]`, seeded with the first
  observation, with `alpha = 2 / (p + 1)`.
 */
module Exponential {
  import opened Wrappers
  import opened Columns
  import opened Algebra

  /** Smoothing factor of `ewm(span=p)`; pandas rejects a span below 1. */
  function Alpha(span: nat): (a: real)
    requires span >= 1
    ensures 0.0 < a <= 1.0
  {
    2.0 / (span as real + 1.0)
  }

  /**
    One step of the recurrence. Before the first observation the average is
    NaN; a NaN after it leaves the running average where it was.
   */
  function EmaStep(alpha: real, prev: Option<real>, cur: Option<real>): Option<real>
  {
    if prev.None? then cur
    else if cur.None? then prev
    else Some(Blend(alpha, cur.value, prev.value))
  }

  /** The weighted combination of the newest value and the previous average. */
  function Blend(alpha: real, cur: real, prev: real): real
  {
    alpha * cur + (1.0 - alpha) * prev
  }

  function EmaAt(x: Column, alpha: real, i: nat): (r: Option<real>)
    requires i < |x|
    ensures r.None? <==> forall j :: 0 <= j <= i ==> x[j].None?
  {
    EmaStep(alpha, if i == 0 then None else EmaAt(x, alpha, i - 1), x[i])
  }

  /** `ewm(span=span, adjust=False).mean()` of a column. */
  function Ewm(x: Column, span: nat): (r: Column)
    requires span >= 1
    ensures |r| == |x|
    ensures forall i :: 0 <= i < |x| ==> r[i] == EmaAt(x, Alpha(span), i)
  {
    seq(|x|, i requires 0 <= i < |x| => EmaAt(x, Alpha(span), i))
  }

  // ---------------------------------------------------------------------------
  // properties
  // ---------------------------------------------------------------------------

  /** The average is seeded with the first value and follows the recurrence after it. */
  lemma EwmRecurrence(x: Column, span: nat, i: nat)
    requires span >= 1 && i < |x|
    ensures i == 0 ==> Ewm(x, span)[0] == x[0]
    ensures 0 < i && x[i].Some? && Ewm(x, span)[i - 1].Some? ==>
              && Ewm(x, span)[i].Some?
              && Ewm(x, span)[i].value == Alpha(span) * x[i].value + (1.0 - Alpha(span)) * Ewm(x, span)[i - 1].value
    ensures 0 < i && x[i].None? ==> Ewm(x, span)[i] == Ewm(x, span)[i - 1]
  {
    if 0 < i {
      var a := Alpha(span);
      var prev := EmaAt(x, a, i - 1);
      assert EmaAt(x, a, i) == EmaStep(a, prev, x[i]);
      assert Ewm(x, span)[i - 1] == prev;
      if x[i].Some? && prev.Some? {
        var r := EmaStep(a, prev, x[i]);
        assert r.Some? && r.value == a * x[i].value + (1.0 - a) * prev.value;
      }
    }
  }

  /** With an observed first value there is no warm-up: the average is defined everywhere. */
  lemma EwmHasNoWarmUp(x: Column, span: nat, i: nat)
    requires span >= 1 && i < |x| && x[0].Some?
    ensures Ewm(x, span)[i].Some?
  {
  }

  lemma ConvexWithin(a: real, v: real, e: real, lo: real, hi: real)
    requires 0.0 <= a <= 1.0 && lo <= v <= hi && lo <= e <= hi
    ensures lo <= Blend(a, v, e) <= hi
  {
    assert a * v + (1.0 - a) * e - lo == a * (v - lo) + (1.0 - a) * (e - lo);
    assert hi - (a * v + (1.0 - a) * e) == a * (hi - v) + (1.0 - a) * (hi - e);
    ProductNonNegative(a, v - lo);
    ProductNonNegative(1.0 - a, e - lo);
    ProductNonNegative(a, hi - v);
    ProductNonNegative(1.0 - a, hi - e);
  }

  /** The average never leaves the range of the values it has seen. */
  lemma {:induction false} EmaWithin(x: Column, alpha: real, i: nat, lo: real, hi: real)
    requires 0.0 < alpha <= 1.0 && i < |x|
    requires forall j :: 0 <= j <= i && x[j].Some? ==> lo <= x[j].value <= hi
    ensures EmaAt(x, alpha, i).Some? ==> lo <= EmaAt(x, alpha, i).value <= hi
  {
    if i > 0 {
      EmaWithin(x, alpha, i - 1, lo, hi);
      var prev := EmaAt(x, alpha, i - 1);
      assert EmaAt(x, alpha, i) == EmaStep(alpha, prev, x[i]);
      if prev.Some? && x[i].Some? {
        ConvexWithin(alpha, x[i].value, prev.value, lo, hi);
      }
    }
  }

  /** A constant column has that constant as its exponential average. */
  lemma EwmOfConstant(x: Column, span: nat, c: real, i: nat)
    requires span >= 1 && i < |x|
    requires forall j :: 0 <= j < |x| ==> x[j] == Some(c)
    ensures Ewm(x, span)[i] == Some(c)
  {
    EmaWithin(x, Alpha(span), i, c, c);
  }
}

=== FILE: frames.dfy ===
/** The slice of a pandas DataFrame the model needs: a row index and named columns. */
module Frames {
  import opened Wrappers
  import opened Columns

  datatype Frame = Frame(index: seq<int>, columns: map<string, Column>) {

    /** Every column is as long as the index. */
    predicate WellFormed()
    {
      forall c :: c in columns ==> |columns[c]| == |index|
    }

    /** `DataFrame.empty`: no rows, or no columns. */
    predicate IsEmpty()
    {
      |index| == 0 || |columns| == 0
    }

    /** Some entry of some column is NaN. */
    predicate HasNaN()
    {
      exists c :: c in columns && exists i :: 0 <= i < |columns[c]| && columns[c][i].None?
    }
  }

  /** `DataFrame.ffill()`: every column forward-filled on its own. */
  function FfillFrame(df: Frame): (r: Frame)
    requires df.WellFormed()
    ensures r.WellFormed()
    ensures r.index == df.index && r.columns.Keys == df.columns.Keys
    ensures forall c :: c in df.columns ==> r.columns[c] == Ffill(df.columns[c])
  {
    Frame(df.index, map c | c in df.columns :: Ffill(df.columns[c]))
  }

  /** A frame without NaNs is its own forward fill. */
  lemma FfillFrameWithoutNaN(df: Frame)
    requires df.WellFormed() && !df.HasNaN()
    ensures forall c :: c in df.columns ==> AllObserved(df.columns[c]) && Ffill(df.columns[c]) == df.columns[c]
  {
    forall c | c in df.columns
      ensures AllObserved(df.columns[c]) && Ffill(df.columns[c]) == df.columns[c]
    {
      FfillWithoutNaN(df.columns[c]);
    }
  }
}

=== FILE: indicators.dfy ===
/**
  `TechnicalIndicators`: an engine built over an OHLCV frame and the
  indicators it computes, column by column, with pandas' NaN semantics.
 */
module TechnicalIndicators {
  import opened Wrappers
  import opened Columns
  import opened Stats
  import opened Rolling
  import opened Exponential
  import opened Frames
  import Ohlcv

  const RequiredColumns: seq<string> := ["open", "high", "low", "close", "volume"]

  /** The engine's `ValueError`s. */
  datatype Error =
    | MissingColumns(required: seq<string>)
    | EmptyFrame
    | ColumnNotFound(column: string)

  /** The five OHLCV columns are all present. */
  predicate HasRequiredColumns(df: Frame)
  {
    "open" in df.columns && "high" in df.columns && "low" in df.columns &&
    "close" in df.columns && "volume" in df.columns
  }

  /** The engine's copy of the frame, as the constructor leaves it. */
  datatype Engine = Engine(df: Frame) {

    predicate Valid()
    {
      && df.WellFormed()
      && HasRequiredColumns(df)
      && |df.index| > 0
      && forall c :: c in df.columns ==> NoInteriorGaps(df.columns[c])
    }

    function Rows(): nat
    {
      |df.index|
    }

    function Open(): (x: Column)
      requires Valid()
      ensures |x| == Rows()
    {
      df.columns["open"]
    }

    function High(): (x: Column)
      requires Valid()
      ensures |x| == Rows()
    {
      df.columns["high"]
    }

    function Low(): (x: Column)
      requires Valid()
      ensures |x| == Rows()
    {
      df.columns["low"]
    }

    function Close(): (x: Column)
      requires Valid()
      ensures |x| == Rows()
    {
      df.columns["close"]
    }

    function Volume(): (x: Column)
      requires Valid()
      ensures |x| == Rows()
    {
      df.columns["volume"]
    }

    /** Every row holds an observed bar that meets the bar invariants. */
    predicate ValidBars()
      requires Valid()
    {
      forall i :: 0 <= i < Rows() ==>
        && Open()[i].Some? && High()[i].Some? && Low()[i].Some?
        && Close()[i].Some? && Volume()[i].Some?
        && Ohlcv.Invariants(Open()[i].value, High()[i].value, Low()[i].value, Close()[i].value, Volume()[i].value)
    }
  }

  /**
    `TechnicalIndicators(ohlcv_df)`: reject a frame that lacks a required
    column, then an empty one; forward-fill the copy if it holds any NaN.
   */
  function New(df: Frame): (r: Result<Engine, Error>)
    requires df.WellFormed()
    ensures r.Success? <==> HasRequiredColumns(df) && |df.index| > 0
    ensures !HasRequiredColumns(df) ==> r == Failure(MissingColumns(RequiredColumns))
    ensures HasRequiredColumns(df) && |df.index| == 0 ==> r == Failure(EmptyFrame)
    ensures r.Success? ==> r.value.Valid() && r.value.df.index == df.index
    ensures r.Success? ==>
              && r.value.df.columns.Keys == df.columns.Keys
              && forall c :: c in df.columns ==> r.value.df.columns[c] == Ffill(df.columns[c])
  {
    if !HasRequiredColumns(df) then Failure(MissingColumns(RequiredColumns))
    else if df.IsEmpty() then Failure(EmptyFrame)
    else if df.HasNaN() then
      var filled := FfillFrame(df);
      assert forall c :: c in filled.columns ==> NoInteriorGaps(filled.columns[c]) by {
        forall c | c in filled.columns
          ensures NoInteriorGaps(filled.columns[c])
        {
          FfillLeavesNoInteriorGaps(df.columns[c]);
        }
      }
      Success(Engine(filled))
    else
      FfillFrameWithoutNaN(df);
      Success(Engine(df))
  }

  // ===========================================================================
  // moving averages
  // ===========================================================================

  /** `sma(period, column)`: an unknown column is an error. */
  function Sma(e: Engine, period: nat, column: string): (r: Result<Column, Error>)
    requires e.Valid()
    ensures r.Failure? <==> column !in e.df.columns
    ensures r.Failure? ==> r.error == ColumnNotFound(column)
    ensures r.Success? ==> |r.value| == e.Rows()
    ensures r.Success? ==> r.value == RollingMean(e.df.columns[column], period)
  {
    if column !in e.df.columns then Failure(ColumnNotFound(column))
    else Success(RollingMean(e.df.columns[column], period))
  }

  /** `ema(period, column)`; pandas rejects a span below 1. */
  function Ema(e: Engine, period: nat, column: string): (r: Result<Column, Error>)
    requires e.Valid() && period >= 1
    ensures r.Failure? <==> column !in e.df.columns
    ensures r.Failure? ==> r.error == ColumnNotFound(column)
    ensures r.Success? ==> |r.value| == e.Rows()
    ensures r.Success? ==> r.value == Ewm(e.df.columns[column], period)
  {
    if column !in e.df.columns then Failure(ColumnNotFound(column))
    else Success(Ewm(e.df.columns[column], period))
  }

  // ===========================================================================
  // momentum
  // ===========================================================================

  /** Difference between each value and the one `p` bars earlier. */
  function MomentumOf(x: Column, p: nat): (r: Column)
    ensures |r| == |x|
    ensures forall i :: 0 <= i < |x| && i < p ==> r[i].None?
    ensures forall i :: p <= i < |x| ==> r[i] == Sub(x[i], x[i - p])
  {
    var lag := Shift(x, p);
    seq(|x|, i requires 0 <= i < |x| => Sub(x[i], lag[i]))
  }

  /** Change over `p` bars as a percentage of the earlier value. */
  function RocOf(x: Column, p: nat): (r: Column)
    ensures |r| == |x|
    ensures forall i :: 0 <= i < |x| && i < p ==> r[i].None?
    ensures forall i :: p <= i < |x| ==>
              (r[i].Some? <==> x[i].Some? && x[i - p].Some? && x[i - p].value != 0.0)
  {
    var lag := Shift(x, p);
    seq(|x|, i requires 0 <= i < |x| => Scale(Div(Sub(x[i], lag[i]), lag[i]), 100.0))
  }

  /** Relative change over `p` bars, as a fraction of the earlier value. */
  function PctChangeOf(x: Column, p: nat): (r: Column)
    ensures |r| == |x|
    ensures forall i :: 0 <= i < |x| && i < p ==> r[i].None?
    ensures forall i :: p <= i < |x| ==>
              (r[i].Some? <==> x[i].Some? && x[i - p].Some? && x[i - p].value != 0.0)
  {
    var lag := Shift(x, p);
    seq(|x|, i requires 0 <= i < |x| => Sub(Div(x[i], lag[i]), Some(1.0)))
  }

  /** `roc(period, column)` */
  function Roc(e: Engine, period: nat, column: string): (r: Result<Column, Error>)
    requires e.Valid()
    ensures r.Failure? <==> column !in e.df.columns
    ensures r.Failure? ==> r.error == ColumnNotFound(column)
    ensures r.Success? ==> |r.value| == e.Rows()
    ensures r.Success? ==> r.value == RocOf(e.df.columns[column], period)
  {
    if column !in e.df.columns then Failure(ColumnNotFound(column))
    else Success(RocOf(e.df.columns[column], period))
  }

  /** `momentum(period, column)` */
  function Momentum(e: Engine, period: nat, column: string): (r: Result<Column, Error>)
    requires e.Valid()
    ensures r.Failure? <==> column !in e.df.columns
    ensures r.Failure? ==> r.error == ColumnNotFound(column)
    ensures r.Success? ==> |r.value| == e.Rows()
    ensures r.Success? ==> r.value == MomentumOf(e.df.columns[column], period)
  {
    if column !in e.df.columns then Failure(ColumnNotFound(column))
    else Success(MomentumOf(e.df.columns[column], period))
  }

  /** `price_velocity(period)` */
  function PriceVelocity(e: Engine, period: nat): (r: Column)
    requires e.Valid()
    ensures |r| == e.Rows()
    ensures forall i :: 0 <= i < |r| && i < period ==> r[i].None?
    ensures forall i :: period <= i < |r| ==>
              (r[i].Some? <==> e.Close()[i].Some? && e.Close()[i - period].Some? && e.Close()[i - period].value != 0.0)
  {
    PctChangeOf(e.Close(), period)
  }

  // ===========================================================================
  // oscillators
  // ===========================================================================

  /** The kept part of one change: the rise if the change is positive, else 0 (NaN included). */
  function Rise(delta: Option<real>): (r: Option<real>)
    ensures r.Some? && r.value >= 0.0
    ensures delta.None? ==> r == Some(0.0)
    ensures delta.Some? ==> r.value >= delta.value && (r.value == 0.0 || r.value == delta.value)
  {
    if Greater(delta, Some(0.0)) then delta else Some(0.0)
  }

  /** The kept part of one change: the fall, as a positive number, if the change is negative, else 0. */
  function Fall(delta: Option<real>): (r: Option<real>)
    ensures r.Some? && r.value >= 0.0
    ensures delta.None? ==> r == Some(0.0)
    ensures delta.Some? ==> r.value >= -delta.value && (r.value == 0.0 || r.value == -delta.value)
  {
    if Less(delta, Some(0.0)) then Some(-delta.value) else Some(0.0)
  }

  /** The rise at each bar, 0 otherwise (NaN included). */
  function Gains(x: Column): (g: Column)
    ensures |g| == |x|
    ensures forall i :: 0 <= i < |x| ==> g[i].Some? && g[i].value >= 0.0
    ensures |x| > 0 ==> g[0] == Some(0.0)
    ensures forall i :: 1 <= i < |x| ==>
              g[i] == if x[i].Some? && x[i - 1].Some? && x[i].value > x[i - 1].value
                      then Some(x[i].value - x[i - 1].value) else Some(0.0)
  {
    var delta := MomentumOf(x, 1);
    var g := seq(|x|, i requires 0 <= i < |x| => Rise(delta[i]));
    assert forall i :: 1 <= i < |x| ==>
             g[i] == if x[i].Some? && x[i - 1].Some? && x[i].value > x[i - 1].value
                      then Some(x[i].value - x[i - 1].value) else Some(0.0) by {
      forall i | 1 <= i < |x|
        ensures g[i] == if x[i].Some? && x[i - 1].Some? && x[i].value > x[i - 1].value
                         then Some(x[i].value - x[i - 1].value) else Some(0.0)
      {
        assert delta[i] == Sub(x[i], x[i - 1]);
      }
    }
    g
  }

  /** The fall at each bar as a positive number, 0 otherwise (NaN included). */
  function Losses(x: Column): (l: Column)
    ensures |l| == |x|
    ensures forall i :: 0 <= i < |x| ==> l[i].Some? && l[i].value >= 0.0
    ensures |x| > 0 ==> l[0] == Some(0.0)
    ensures forall i :: 1 <= i < |x| ==>
              l[i] == if x[i].Some? && x[i - 1].Some? && x[i].value < x[i - 1].value
                      then Some(x[i - 1].value - x[i].value) else Some(0.0)
  {
    var delta := MomentumOf(x, 1);
    var l := seq(|x|, i requires 0 <= i < |x| => Fall(delta[i]));
    assert forall i :: 1 <= i < |x| ==>
             l[i] == if x[i].Some? && x[i - 1].Some? && x[i].value < x[i - 1].value
                      then Some(x[i - 1].value - x[i].value) else Some(0.0) by {
      forall i | 1 <= i < |x|
        ensures l[i] == if x[i].Some? && x[i - 1].Some? && x[i].value < x[i - 1].value
                         then Some(x[i - 1].value - x[i].value) else Some(0.0)
      {
        assert delta[i] == Sub(x[i], x[i - 1]);
      }
    }
    l
  }

  function AverageGain(e: Engine, period: nat): (g: Column)
    requires e.Valid()
    ensures |g| == e.Rows()
  {
    RollingMean(Gains(e.Close()), period)
  }

  function AverageLoss(e: Engine, period: nat): (l: Column)
    requires e.Valid()
    ensures |l| == e.Rows()
  {
    RollingMean(Losses(e.Close()), period)
  }

  /**
    `100 - 100 / (1 + gain / loss)` with the float edge cases spelled out: a
    zero loss against a non-zero gain makes the ratio infinite and the index
    100; zero over zero is NaN.
   */
  function RsiValue(gain: Option<real>, loss: Option<real>): (r: Option<real>)
    ensures r.Some? ==> gain.Some? && loss.Some?
    ensures gain.Some? && loss.Some? && loss.value == 0.0 ==>
              (r.Some? <==> gain.value != 0.0) && (r.Some? ==> r.value == 100.0)
  {
    if gain.None? || loss.None? then None
    else if loss.value == 0.0 then (if gain.value == 0.0 then None else Some(100.0))
    else if 1.0 + gain.value / loss.value == 0.0 then None
    else Some(100.0 - 100.0 / (1.0 + gain.value / loss.value))
  }

  /** `rsi(period)` */
  function Rsi(e: Engine, period: nat): (r: Column)
    requires e.Valid()
    ensures |r| == e.Rows()
    ensures forall i :: 0 <= i < |r| ==> r[i] == RsiValue(AverageGain(e, period)[i], AverageLoss(e, period)[i])
  {
    var gain := AverageGain(e, period);
    var loss := AverageLoss(e, period);
    seq(e.Rows(), i requires 0 <= i < e.Rows() => RsiValue(gain[i], loss[i]))
  }

  function HighestHigh(e: Engine, period: nat): (r: Column)
    requires e.Valid()
    ensures |r| == e.Rows()
  {
    RollingMax(e.High(), period)
  }

  function LowestLow(e: Engine, period: nat): (r: Column)
    requires e.Valid()
    ensures |r| == e.Rows()
  {
    RollingMin(e.Low(), period)
  }

  /** %R of a close against a window's highest high and lowest low. */
  function PercentR(hh: Option<real>, ll: Option<real>, c: Option<real>): (r: Option<real>)
    ensures r.Some? <==> hh.Some? && ll.Some? && c.Some? && hh.value != ll.value
    ensures r.Some? ==> r.value * (hh.value - ll.value) == (hh.value - c.value) * -100.0
  {
    var q := Div(Sub(hh, c), Sub(hh, ll));
    Scale(q, -100.0)
  }

  /** %K of a close against a window's highest high and lowest low. */
  function PercentK(hh: Option<real>, ll: Option<real>, c: Option<real>): (r: Option<real>)
    ensures r.Some? <==> hh.Some? && ll.Some? && c.Some? && hh.value != ll.value
    ensures r.Some? ==> r.value * (hh.value - ll.value) == (c.value - ll.value) * 100.0
  {
    var q := Div(Sub(c, ll), Sub(hh, ll));
    Scale(q, 100.0)
  }

  /** `williams_r(period)`: the close's distance below the window's high, as a negative percentage of the high-low range. */
  function WilliamsR(e: Engine, period: nat): (r: Column)
    requires e.Valid()
    ensures |r| == e.Rows()
    ensures forall i :: 0 <= i < |r| ==>
              (r[i].Some? <==>
                 && HighestHigh(e, period)[i].Some? && LowestLow(e, period)[i].Some? && e.Close()[i].Some?
                 && HighestHigh(e, period)[i].value != LowestLow(e, period)[i].value)
    ensures forall i :: 0 <= i < |r| ==>
              r[i] == PercentR(HighestHigh(e, period)[i], LowestLow(e, period)[i], e.Close()[i])
  {
    var hh := HighestHigh(e, period);
    var ll := LowestLow(e, period);
    var close := e.Close();
    seq(e.Rows(), i requires 0 <= i < e.Rows() => PercentR(hh[i], ll[i], close[i]))
  }

  /** The %K line: the close's distance above the window's low, as a percentage of the high-low range. */
  function StochasticK(e: Engine, kPeriod: nat): (r: Column)
    requires e.Valid()
    ensures |r| == e.Rows()
    ensures forall i :: 0 <= i < |r| ==>
              (r[i].Some? <==>
                 && HighestHigh(e, kPeriod)[i].Some? && LowestLow(e, kPeriod)[i].Some? && e.Close()[i].Some?
                 && HighestHigh(e, kPeriod)[i].value != LowestLow(e, kPeriod)[i].value)
    ensures forall i :: 0 <= i < |r| ==>
              r[i] == PercentK(HighestHigh(e, kPeriod)[i], LowestLow(e, kPeriod)[i], e.Close()[i])
  {
    var hh := HighestHigh(e, kPeriod);
    var ll := LowestLow(e, kPeriod);
    var close := e.Close();
    seq(e.Rows(), i requires 0 <= i < e.Rows() => PercentK(hh[i], ll[i], close[i]))
  }

  /** `stochastic_oscillator(k_period, d_period)`: %K and its rolling mean %D. */
  function StochasticOscillator(e: Engine, kPeriod: nat, dPeriod: nat): (r: (Column, Column))
    requires e.Valid()
    ensures |r.0| == |r.1| == e.Rows()
    ensures r.0 == StochasticK(e, kPeriod) && r.1 == RollingMean(r.0, dPeriod)
  {
    var k := StochasticK(e, kPeriod);
    (k, RollingMean(k, dPeriod))
  }

  // ===========================================================================
  // MACD
  // ===========================================================================

  datatype MacdLines = MacdLines(line: Column, signal: Column, histogram: Column)

  /** `macd(fast_period, slow_period, signal_period)` */
  function Macd(e: Engine, fastPeriod: nat, slowPeriod: nat, signalPeriod: nat): (m: MacdLines)
    requires e.Valid() && fastPeriod >= 1 && slowPeriod >= 1 && signalPeriod >= 1
    ensures |m.line| == |m.signal| == |m.histogram| == e.Rows()
    ensures forall i :: 0 <= i < e.Rows() ==>
              m.line[i] == Sub(Ewm(e.Close(), fastPeriod)[i], Ewm(e.Close(), slowPeriod)[i])
    ensures m.signal == Ewm(m.line, signalPeriod)
    ensures forall i :: 0 <= i < e.Rows() ==> m.histogram[i] == Sub(m.line[i], m.signal[i])
  {
    var fast := Ewm(e.Close(), fastPeriod);
    var slow := Ewm(e.Close(), slowPeriod);
    var line := seq(e.Rows(), i requires 0 <= i < e.Rows() => Sub(fast[i], slow[i]));
    var signal := Ewm(line, signalPeriod);
    var histogram := seq(e.Rows(), i requires 0 <= i < e.Rows() => Sub(line[i], signal[i]));
    MacdLines(line, signal, histogram)
  }

  // ===========================================================================
  // volatility
  // ===========================================================================

  datatype Bands = Bands(upper: Column, middle: Column, lower: Column)

  /**
    `bollinger_bands(period, std_dev)`. `sqrt` stands for the square root
    pandas takes inside `rolling(...).std()`.
   */
  function BollingerBands(e: Engine, period: nat, stdDev: real, sqrt: real -> real): (b: Bands)
    requires e.Valid()
    ensures |b.upper| == |b.middle| == |b.lower| == e.Rows()
    ensures b.middle == RollingMean(e.Close(), period)
    ensures forall i :: 0 <= i < e.Rows() ==>
              b.upper[i] == Add(b.middle[i], Scale(RollingStd(e.Close(), period, sqrt)[i], stdDev))
    ensures forall i :: 0 <= i < e.Rows() ==>
              b.lower[i] == Sub(b.middle[i], Scale(RollingStd(e.Close(), period, sqrt)[i], stdDev))
  {
    var middle := RollingMean(e.Close(), period);
    var std := RollingStd(e.Close(), period, sqrt);
    var upper := seq(e.Rows(), i requires 0 <= i < e.Rows() => Add(middle[i], Scale(std[i], stdDev)));
    var lower := seq(e.Rows(), i requires 0 <= i < e.Rows() => Sub(middle[i], Scale(std[i], stdDev)));
    Bands(upper, middle, lower)
  }

  /** The larger of two values, skipping NaN as `DataFrame.max(axis=1)` does. */
  function MaxSkipNaN(a: Option<real>, b: Option<real>): (r: Option<real>)
    ensures r.None? <==> a.None? && b.None?
    ensures r.Some? ==> (a.Some? ==> a.value <= r.value) && (b.Some? ==> b.value <= r.value)
    ensures r.Some? ==> r == a || r == b
  {
    if a.None? then b
    else if b.None? then a
    else if a.value >= b.value then a else b
  }

  /** The true range: the widest of high - low, |high - prev close|, |low - prev close|. */
  function TrueRange(e: Engine): (tr: Column)
    requires e.Valid()
    ensures |tr| == e.Rows()
    ensures forall i :: 0 <= i < |tr| && e.High()[i].Some? && e.Low()[i].Some? ==>
              tr[i].Some? && tr[i].value >= e.High()[i].value - e.Low()[i].value
    ensures forall i :: 1 <= i < |tr| && e.High()[i].Some? && e.Low()[i].Some? && e.Close()[i - 1].Some? ==>
              && tr[i].Some?
              && tr[i].value >= AbsValue(e.High()[i].value - e.Close()[i - 1].value)
              && tr[i].value >= AbsValue(e.Low()[i].value - e.Close()[i - 1].value)
    ensures e.Rows() > 0 ==> tr[0] == Sub(e.High()[0], e.Low()[0])
    ensures forall i :: 1 <= i < |tr| ==>
              || tr[i] == Sub(e.High()[i], e.Low()[i])
              || tr[i] == Abs(Sub(e.High()[i], e.Close()[i - 1]))
              || tr[i] == Abs(Sub(e.Low()[i], e.Close()[i - 1]))
  {
    var prevClose := Shift(e.Close(), 1);
    var high := e.High();
    var low := e.Low();
    seq(e.Rows(), i requires 0 <= i < e.Rows() =>
      MaxSkipNaN(Sub(high[i], low[i]), MaxSkipNaN(Abs(Sub(high[i], prevClose[i])), Abs(Sub(low[i], prevClose[i])))))
  }

  /** `atr(period)` */
  function Atr(e: Engine, period: nat): (r: Column)
    requires e.Valid()
    ensures |r| == e.Rows()
    ensures forall i :: 0 <= i < |r| ==> r[i] == MeanAt(TrueRange(e), i, period)
  {
    RollingMean(TrueRange(e), period)
  }

  // ===========================================================================
  // volume
  // ===========================================================================

  /** `volume_sma(period)` */
  function VolumeSma(e: Engine, period: nat): (r: Column)
    requires e.Valid()
    ensures Sma(e, period, "volume") == Success(r)
  {
    RollingMean(e.Volume(), period)
  }

  /** `volume_velocity(period)`: volume over its moving average. */
  function VolumeVelocity(e: Engine, period: nat): (r: Column)
    requires e.Valid()
    ensures |r| == e.Rows()
    ensures forall i :: 0 <= i < |r| ==>
              (r[i].Some? <==> e.Volume()[i].Some? && VolumeSma(e, period)[i].Some? && VolumeSma(e, period)[i].value != 0.0)
  {
    var average := VolumeSma(e, period);
    var volume := e.Volume();
    seq(e.Rows(), i requires 0 <= i < e.Rows() => Div(volume[i], average[i]))
  }

  /** On-balance volume at bar `i`, by its recursive definition. */
  function ObvAt(close: Column, volume: Column, i: nat): (r: Option<real>)
    requires |close| == |volume| && i < |close|
    ensures (forall k :: 0 <= k <= i ==> volume[k].Some?) ==> r.Some?
  {
    if i == 0 then volume[0]
    else
      var prev := ObvAt(close, volume, i - 1);
      if Greater(close[i], close[i - 1]) then Add(prev, volume[i])
      else if Less(close[i], close[i - 1]) then Sub(prev, volume[i])
      else prev
  }

  /** `obv()` */
  function Obv(e: Engine): (r: Column)
    requires e.Valid()
    ensures |r| == e.Rows() && r[0] == e.Volume()[0]
    ensures forall i :: 0 <= i < |r| ==> r[i] == ObvAt(e.Close(), e.Volume(), i)
  {
    seq(e.Rows(), i requires 0 <= i < e.Rows() => ObvAt(e.Close(), e.Volume(), i))
  }

  /** `obv()`'s left-to-right loop with one running accumulator. */
  method ObvScan(close: Column, volume: Column) returns (obv: Column)
    requires |close| == |volume| && |close| > 0
    ensures |obv| == |close|
    ensures forall i :: 0 <= i < |close| ==> obv[i] == ObvAt(close, volume, i)
  {
    obv := [volume[0]];
    var i := 1;
    while i < |close|
      invariant 1 <= i <= |close|
      invariant |obv| == i
      invariant forall k :: 0 <= k < i ==> obv[k] == ObvAt(close, volume, k)
    {
      var next: Option<real>;
      if Greater(close[i], close[i - 1]) {
        next := Add(obv[i - 1], volume[i]);
      } else if Less(close[i], close[i - 1]) {
        next := Sub(obv[i - 1], volume[i]);
      } else {
        next := obv[i - 1];
      }
      obv := obv + [next];
      i := i + 1;
    }
  }
}

=== FILE: momentum_laws.dfy ===
/** Properties of the shift-based indicators and of the RSI. */
module MomentumLaws {
  import opened Wrappers
  import opened Columns
  import opened Rolling
  import opened TechnicalIndicators
  import opened Algebra

  // ===========================================================================
  // momentum, ROC and price velocity
  // ===========================================================================

  /** ROC is the momentum over the same period, relative to the lagged value, in percent. */
  lemma RocIsRelativeMomentum(x: Column, p: nat, i: nat)
    requires p <= i < |x|
    ensures RocOf(x, p)[i].Some? <==> MomentumOf(x, p)[i].Some? && x[i - p].value != 0.0
    ensures RocOf(x, p)[i].Some? ==>
              RocOf(x, p)[i].value == MomentumOf(x, p)[i].value / x[i - p].value * 100.0
  {
  }

  lemma PercentChangeOfValues(a: Option<real>, b: Option<real>)
    ensures Sub(Div(a, b), Some(1.0)).Some? <==> Scale(Div(Sub(a, b), b), 100.0).Some?
    ensures Sub(Div(a, b), Some(1.0)).Some? ==>
              Sub(Div(a, b), Some(1.0)).value * 100.0 == Scale(Div(Sub(a, b), b), 100.0).value
  {
    if a.Some? && b.Some? && b.value != 0.0 {
      PercentChange(a.value, b.value);
    }
  }

  /** The percent change times 100 is the ROC, at the same defined positions. */
  lemma PctChangeIsRocOverHundred(x: Column, p: nat, i: nat)
    requires i < |x|
    ensures PctChangeOf(x, p)[i].Some? <==> RocOf(x, p)[i].Some?
    ensures PctChangeOf(x, p)[i].Some? ==> PctChangeOf(x, p)[i].value * 100.0 == RocOf(x, p)[i].value
  {
    var lag := Shift(x, p);
    assert PctChangeOf(x, p)[i] == Sub(Div(x[i], lag[i]), Some(1.0));
    assert RocOf(x, p)[i] == Scale(Div(Sub(x[i], lag[i]), lag[i]), 100.0);
    PercentChangeOfValues(x[i], lag[i]);
  }

  /** `price_velocity(p)` times 100 is `roc(p)` of the close, at the same defined positions. */
  lemma PriceVelocityIsRocOverHundred(e: Engine, p: nat, i: nat)
    requires e.Valid() && i < e.Rows()
    ensures Roc(e, p, "close").Success?
    ensures PriceVelocity(e, p)[i].Some? <==> Roc(e, p, "close").value[i].Some?
    ensures PriceVelocity(e, p)[i].Some? ==>
              PriceVelocity(e, p)[i].value * 100.0 == Roc(e, p, "close").value[i].value
  {
    assert e.Close() == e.df.columns["close"];
    PctChangeIsRocOverHundred(e.Close(), p, i);
  }

  /** Where `price_velocity(p)` is defined, one plus it scales the earlier close to the current one. */
  lemma PriceVelocityIsRelativeChange(e: Engine, p: nat, i: nat)
    requires e.Valid() && p <= i < e.Rows() && PriceVelocity(e, p)[i].Some?
    ensures e.Close()[i].Some? && e.Close()[i - p].Some?
    ensures (PriceVelocity(e, p)[i].value + 1.0) * e.Close()[i - p].value == e.Close()[i].value
  {
    var x := e.Close();
    var lag := Shift(x, p);
    assert PriceVelocity(e, p)[i] == Sub(Div(x[i], lag[i]), Some(1.0));
    assert lag[i] == x[i - p];
    RelativeChangeOfValues(x[i], x[i - p]);
  }


  lemma RelativeChangeOfValues(a: Option<real>, b: Option<real>)
    requires Sub(Div(a, b), Some(1.0)).Some?
    ensures a.Some? && b.Some? && b.value != 0.0
    ensures (Sub(Div(a, b), Some(1.0)).value + 1.0) * b.value == a.value
  {
    assert Div(a, b).value == a.value / b.value;
  }

  /** ROC(1) of 100, 110 is NaN, 10. */
  lemma RocExample()
    ensures RocOf([Some(100.0), Some(110.0)], 1) == [None, Some(10.0)]
  {
    var r := RocOf([Some(100.0), Some(110.0)], 1);
    assert r[1].Some? && r[1].value == 10.0;
  }

  // ===========================================================================
  // RSI
  // ===========================================================================

  /** The RSI written as the share of the gains in the total movement. */
  function GainShare(g: real, l: real): real
    requires g + l != 0.0
  {
    100.0 * g / (g + l)
  }

  /** An observed change splits into its rise and its fall, at most one of them non-zero. */
  lemma RiseMinusFall(delta: Option<real>)
    requires delta.Some?
    ensures Rise(delta).value - Fall(delta).value == delta.value
    ensures Rise(delta).value == 0.0 || Fall(delta).value == 0.0
  {
  }

  /** The RSI is NaN for the first `period - 1` bars. */
  lemma RsiWarmUp(e: Engine, p: nat, i: nat)
    requires e.Valid() && i < e.Rows() && i < p - 1
    ensures Rsi(e, p)[i].None?
  {
    assert Rsi(e, p)[i] == RsiValue(AverageGain(e, p)[i], AverageLoss(e, p)[i]);
  }

  lemma RsiValueCases(g: Option<real>, l: Option<real>)
    requires g.Some? && l.Some? && g.value >= 0.0 && l.value >= 0.0
    ensures g.value == 0.0 && l.value == 0.0 ==> RsiValue(g, l).None?
    ensures g.value > 0.0 && l.value == 0.0 ==> RsiValue(g, l) == Some(100.0)
    ensures l.value > 0.0 ==>
              && RsiValue(g, l).Some?
              && RsiValue(g, l).value == GainShare(g.value, l.value)
              && 0.0 <= RsiValue(g, l).value <= 100.0
  {
    if l.value > 0.0 {
      RsiRatio(g.value, l.value);
    }
  }

  /**
    The RSI at each bar, case by case: NaN during the `period - 1` warm-up
    (gain and loss are defined from the first bar, because the `where` turns
    the first NaN change into 0); NaN when both averages are 0; saturated at
    100 when only the average loss is 0; otherwise `100 * gain / (gain + loss)`,
    which lies in [0, 100].
   */
  lemma RsiCases(e: Engine, p: nat, i: nat)
    requires e.Valid() && p >= 1 && i < e.Rows()
    ensures i < p - 1 ==> Rsi(e, p)[i].None?
    ensures p - 1 <= i ==> AverageGain(e, p)[i].Some? && AverageLoss(e, p)[i].Some?
    ensures p - 1 <= i ==> AverageGain(e, p)[i].value >= 0.0 && AverageLoss(e, p)[i].value >= 0.0
    ensures p - 1 <= i && AverageGain(e, p)[i].value == 0.0 && AverageLoss(e, p)[i].value == 0.0 ==>
              Rsi(e, p)[i].None?
    ensures p - 1 <= i && AverageGain(e, p)[i].value > 0.0 && AverageLoss(e, p)[i].value == 0.0 ==>
              Rsi(e, p)[i] == Some(100.0)
    ensures p - 1 <= i && AverageLoss(e, p)[i].value > 0.0 ==>
              && Rsi(e, p)[i].Some?
              && Rsi(e, p)[i].value == GainShare(AverageGain(e, p)[i].value, AverageLoss(e, p)[i].value)
  {
    var g := Gains(e.Close());
    var l := Losses(e.Close());
    RollingMeanNonNegative(g, p, i);
    RollingMeanNonNegative(l, p, i);
    assert Rsi(e, p)[i] == RsiValue(AverageGain(e, p)[i], AverageLoss(e, p)[i]);
    if p - 1 <= i {
      assert forall k :: i - p < k <= i ==> g[k].Some? && l[k].Some?;
      RsiValueCases(AverageGain(e, p)[i], AverageLoss(e, p)[i]);
    }
  }

  /** Wherever it is defined the RSI lies in [0, 100]. */
  lemma RsiBounded(e: Engine, p: nat, i: nat)
    requires e.Valid() && i < e.Rows()
    ensures Rsi(e, p)[i].Some? ==> 0.0 <= Rsi(e, p)[i].value <= 100.0
  {
    var g := Gains(e.Close());
    var l := Losses(e.Close());
    RollingMeanNonNegative(g, p, i);
    RollingMeanNonNegative(l, p, i);
    assert Rsi(e, p)[i] == RsiValue(AverageGain(e, p)[i], AverageLoss(e, p)[i]);
    if Rsi(e, p)[i].Some? {
      RsiValueCases(AverageGain(e, p)[i], AverageLoss(e, p)[i]);
    }
  }

  /** Closes that only rise saturate the RSI at 100 once the window has filled. */
  lemma RsiOfRisingCloses(e: Engine, p: nat, i: nat)
    requires e.Valid() && StrictlyRising(e.Close())
    requires 2 <= p && p - 1 <= i < e.Rows()
    ensures Rsi(e, p)[i] == Some(100.0)
  {
    var x := e.Close();
    var g := Gains(x);
    var l := Losses(x);
    var delta := MomentumOf(x, 1);
    forall k | 0 <= k < |l|
      ensures l[k] == Some(0.0)
    {
      if k >= 1 {
        assert delta[k] == Sub(x[k], x[k - 1]);
      }
    }
    assert delta[i] == Sub(x[i], x[i - 1]);
    assert g[i].value > 0.0;
    RsiCases(e, p, i);
    RollingMeanWithin(l, p, i, 0.0, 0.0);
    RollingMeanPositive(g, p, i);
  }

  /** A flat close never moves, so both averages are 0 and the RSI is NaN everywhere. */
  lemma RsiOfFlatCloses(e: Engine, p: nat, c: real, i: nat)
    requires e.Valid() && i < e.Rows()
    requires forall k :: 0 <= k < e.Rows() ==> e.Close()[k] == Some(c)
    ensures Rsi(e, p)[i].None?
  {
    var x := e.Close();
    var g := Gains(x);
    var l := Losses(x);
    var delta := MomentumOf(x, 1);
    forall k | 0 <= k < |x|
      ensures g[k] == Some(0.0) && l[k] == Some(0.0)
    {
      if k >= 1 {
        assert delta[k] == Sub(x[k], x[k - 1]);
      }
    }
    if p >= 1 {
      RsiCases(e, p, i);
      RollingMeanWithin(g, p, i, 0.0, 0.0);
      RollingMeanWithin(l, p, i, 0.0, 0.0);
    }
  }
}

=== FILE: ohlcv.dfy ===
/**
  The OHLCV data model: one bar validated at construction, and a list of bars
  with metadata that can be laid out as a frame of parallel columns.
 */
module Ohlcv {
  import opened Wrappers
  import opened Columns
  import opened Frames

  /** A bar as constructed; `timestamp` stands for the bar's instant in milliseconds. */
  datatype Bar = Bar(timestamp: int, open: real, high: real, low: real, close: real, volume: real)

  /** Why `OHLCVBar.__post_init__` rejected a bar; each carries the offending values. */
  datatype BarError =
    | HighBelowLow(high: real, low: real)
    | HighBelowOpenOrClose(high: real, open: real, close: real)
    | LowAboveOpenOrClose(low: real, open: real, close: real)
    | NegativeVolume(volume: real)

  /** The invariants every accepted bar satisfies. */
  predicate Invariants(open: real, high: real, low: real, close: real, volume: real)
  {
    && high >= low
    && high >= open
    && high >= close
    && low <= open
    && low <= close
    && volume >= 0.0
  }

  predicate ValidBar(b: Bar)
  {
    Invariants(b.open, b.high, b.low, b.close, b.volume)
  }

  /** `OHLCVBar(...)`: the checks of `__post_init__`, in order; the first failing one decides. */
  function NewBar(timestamp: int, open: real, high: real, low: real, close: real, volume: real): (r: Result<Bar, BarError>)
    ensures r.Success? <==> Invariants(open, high, low, close, volume)
    ensures r.Success? ==> r.value == Bar(timestamp, open, high, low, close, volume)
    ensures high < low ==> r == Failure(HighBelowLow(high, low))
    ensures r.Failure? && r.error.HighBelowOpenOrClose? ==> r.error == HighBelowOpenOrClose(high, open, close)
    ensures r.Failure? && r.error.LowAboveOpenOrClose? ==> r.error == LowAboveOpenOrClose(low, open, close)
    ensures r == Failure(NegativeVolume(volume)) <==>
              volume < 0.0 && high >= low && high >= open && high >= close && low <= open && low <= close
  {
    if high < low then Failure(HighBelowLow(high, low))
    else if high < open || high < close then Failure(HighBelowOpenOrClose(high, open, close))
    else if low > open || low > close then Failure(LowAboveOpenOrClose(low, open, close))
    else if volume < 0.0 then Failure(NegativeVolume(volume))
    else Success(Bar(timestamp, open, high, low, close, volume))
  }

  /** Which check rejected the bar, as the order of the checks determines it. */
  lemma NewBarFirstViolationWins(timestamp: int, open: real, high: real, low: real, close: real, volume: real)
    ensures var r := NewBar(timestamp, open, high, low, close, volume);
      && (r.Failure? && r.error.HighBelowOpenOrClose? <==> high >= low && (high < open || high < close))
      && (r.Failure? && r.error.LowAboveOpenOrClose? <==>
            high >= low && high >= open && high >= close && (low > open || low > close))
  {
  }

  /** An accepted bar has both open and close inside its range, and a non-negative range. */
  lemma AcceptedBarIsInsideItsRange(timestamp: int, open: real, high: real, low: real, close: real, volume: real)
    requires NewBar(timestamp, open, high, low, close, volume).Success?
    ensures low <= open <= high && low <= close <= high && high - low >= 0.0
  {
  }

  /** high=10, low=20 and volume=-5 are both rejected. */
  lemma RejectedBarExamples()
    ensures NewBar(0, 15.0, 10.0, 20.0, 15.0, 1.0) == Failure(HighBelowLow(10.0, 20.0))
    ensures NewBar(0, 15.0, 20.0, 10.0, 15.0, -5.0) == Failure(NegativeVolume(-5.0))
  {
  }

  /** `OHLCVData`: metadata and the bars in the order they were given. */
  datatype Data = Data(symbol: string, timeframe: string, exchange: string, bars: seq<Bar>)

  /** `len(data)` */
  function Length(d: Data): (n: nat)
    ensures n == |ToDataFrame(d).index|
  {
    |d.bars|
  }

  const PriceColumns: set<string> := {"open", "high", "low", "close", "volume"}

  function Project(bars: seq<Bar>, field: Bar -> real): (x: Column)
    ensures |x| == |bars|
    ensures AllObserved(x)
    ensures forall i :: 0 <= i < |bars| ==> x[i] == Some(field(bars[i]))
  {
    seq(|bars|, i requires 0 <= i < |bars| => Some(field(bars[i])))
  }

  function Timestamps(bars: seq<Bar>): (ts: seq<int>)
    ensures |ts| == |bars|
    ensures forall i :: 0 <= i < |bars| ==> ts[i] == bars[i].timestamp
  {
    seq(|bars|, i requires 0 <= i < |bars| => bars[i].timestamp)
  }

  /**
    `OHLCVData.to_dataframe()`. With no bars the frame has six empty columns,
    `timestamp` among them; otherwise the timestamps become the index and the
    five price columns hold the bars' fields in order.
   */
  function ToDataFrame(d: Data): (df: Frame)
    ensures df.WellFormed()
    ensures |df.index| == |d.bars|
    ensures |d.bars| == 0 ==> df.columns.Keys == PriceColumns + {"timestamp"}
    ensures |d.bars| > 0 ==> df.columns.Keys == PriceColumns
    ensures forall i :: 0 <= i < |d.bars| ==> df.index[i] == d.bars[i].timestamp
    ensures forall i :: 0 <= i < |d.bars| ==>
              && df.columns["open"][i] == Some(d.bars[i].open)
              && df.columns["high"][i] == Some(d.bars[i].high)
              && df.columns["low"][i] == Some(d.bars[i].low)
              && df.columns["close"][i] == Some(d.bars[i].close)
              && df.columns["volume"][i] == Some(d.bars[i].volume)
  {
    if |d.bars| == 0 then
      Frame([], map["timestamp" := [], "open" := [], "high" := [], "low" := [], "close" := [], "volume" := []])
    else
      Frame(Timestamps(d.bars), map[
        "open" := Project(d.bars, (b: Bar) => b.open),
        "high" := Project(d.bars, (b: Bar) => b.high),
        "low" := Project(d.bars, (b: Bar) => b.low),
        "close" := Project(d.bars, (b: Bar) => b.close),
        "volume" := Project(d.bars, (b: Bar) => b.volume)])
  }
}

=== FILE: oscillator_laws.dfy ===
/** Properties of Williams %R, the stochastic oscillator and MACD. */
module OscillatorLaws {
  import opened Wrappers
  import opened Rolling
  import opened Exponential
  import opened Algebra
  import opened TechnicalIndicators

  // ===========================================================================
  // Williams %R and the stochastic oscillator
  // ===========================================================================

  lemma PercentROfValues(hh: Option<real>, ll: Option<real>, c: Option<real>)
    ensures PercentR(hh, ll, c).Some? <==> PercentK(hh, ll, c).Some?
    ensures PercentR(hh, ll, c).Some? ==> PercentR(hh, ll, c).value == PercentK(hh, ll, c).value - 100.0
  {
    if hh.Some? && ll.Some? && c.Some? && hh.value - ll.value != 0.0 {
      WilliamsFromStochastic(hh.value, ll.value, c.value);
    }
  }

  lemma PercentKOfValues(hh: Option<real>, ll: Option<real>, c: Option<real>)
    requires hh.Some? && ll.Some? && c.Some? && ll.value <= c.value <= hh.value
    ensures PercentK(hh, ll, c).Some? <==> hh.value > ll.value
    ensures PercentK(hh, ll, c).Some? ==> 0.0 <= PercentK(hh, ll, c).value <= 100.0
  {
    if hh.value > ll.value {
      DivBetween(c.value - ll.value, hh.value - ll.value, 0.0, 1.0);
    }
  }

  /** Williams %R is %K shifted down by 100, and both are defined at the same bars. */
  lemma WilliamsRIsStochasticKMinusHundred(e: Engine, p: nat, i: nat)
    requires e.Valid() && i < e.Rows()
    ensures WilliamsR(e, p)[i].Some? <==> StochasticK(e, p)[i].Some?
    ensures WilliamsR(e, p)[i].Some? ==> WilliamsR(e, p)[i].value == StochasticK(e, p)[i].value - 100.0
  {
    var hh := HighestHigh(e, p);
    var ll := LowestLow(e, p);
    assert WilliamsR(e, p)[i] == PercentR(hh[i], ll[i], e.Close()[i]);
    assert StochasticK(e, p)[i] == PercentK(hh[i], ll[i], e.Close()[i]);
    PercentROfValues(hh[i], ll[i], e.Close()[i]);
  }

  /**
    Over valid bars the close lies between the window's lowest low and highest
    high, so %K is in [0, 100] and %R in [-100, 0]; both are defined exactly
    where the window has filled and is not flat.
   */
  lemma StochasticBounds(e: Engine, p: nat, i: nat)
    requires e.Valid() && e.ValidBars() && i < e.Rows()
    ensures StochasticK(e, p)[i].Some? <==>
              HighestHigh(e, p)[i].Some? && LowestLow(e, p)[i].Some? &&
              HighestHigh(e, p)[i].value > LowestLow(e, p)[i].value
    ensures StochasticK(e, p)[i].Some? ==> 0.0 <= StochasticK(e, p)[i].value <= 100.0
    ensures WilliamsR(e, p)[i].Some? ==> -100.0 <= WilliamsR(e, p)[i].value <= 0.0
  {
    var hh := HighestHigh(e, p);
    var ll := LowestLow(e, p);
    var c := e.Close();
    assert StochasticK(e, p)[i] == PercentK(hh[i], ll[i], c[i]);
    WilliamsRIsStochasticKMinusHundred(e, p, i);
    if hh[i].Some? && ll[i].Some? {
      assert e.High()[i].value <= hh[i].value;
      assert ll[i].value <= e.Low()[i].value;
      PercentKOfValues(hh[i], ll[i], c[i]);
    }
  }

  /** Over valid bars %D, the rolling mean of %K, is in [0, 100] too. */
  lemma StochasticDBounded(e: Engine, kPeriod: nat, dPeriod: nat, i: nat)
    requires e.Valid() && e.ValidBars() && i < e.Rows()
    ensures StochasticOscillator(e, kPeriod, dPeriod).1[i].Some? ==>
              0.0 <= StochasticOscillator(e, kPeriod, dPeriod).1[i].value <= 100.0
  {
    var k := StochasticK(e, kPeriod);
    forall j | 0 <= j < |k| && k[j].Some?
      ensures 0.0 <= k[j].value <= 100.0
    {
      StochasticBounds(e, kPeriod, j);
    }
    RollingMeanWithin(k, dPeriod, i, 0.0, 100.0);
  }

  // ===========================================================================
  // MACD
  // ===========================================================================

  /** Both averages are seeded with the first close, so all three lines start at 0. */
  lemma MacdStartsAtZero(e: Engine, fast: nat, slow: nat, signal: nat)
    requires e.Valid() && fast >= 1 && slow >= 1 && signal >= 1
    requires e.Close()[0].Some?
    ensures Macd(e, fast, slow, signal).line[0] == Some(0.0)
    ensures Macd(e, fast, slow, signal).signal[0] == Some(0.0)
    ensures Macd(e, fast, slow, signal).histogram[0] == Some(0.0)
  {
    var m := Macd(e, fast, slow, signal);
    EwmRecurrence(e.Close(), fast, 0);
    EwmRecurrence(e.Close(), slow, 0);
    EwmRecurrence(m.line, signal, 0);
  }

  /** Once the first close is observed, all three lines are defined at every bar. */
  lemma MacdHasNoWarmUp(e: Engine, fast: nat, slow: nat, signal: nat, i: nat)
    requires e.Valid() && fast >= 1 && slow >= 1 && signal >= 1 && i < e.Rows()
    requires e.Close()[0].Some?
    ensures Macd(e, fast, slow, signal).line[i].Some?
    ensures Macd(e, fast, slow, signal).signal[i].Some?
    ensures Macd(e, fast, slow, signal).histogram[i].Some?
  {
    var m := Macd(e, fast, slow, signal);
    EwmHasNoWarmUp(e.Close(), fast, i);
    EwmHasNoWarmUp(e.Close(), slow, i);
    MacdStartsAtZero(e, fast, slow, signal);
    EwmHasNoWarmUp(m.line, signal, i);
  }

  /** A constant close has no trend: MACD line, signal and histogram are all 0. */
  lemma MacdOfConstantClose(e: Engine, fast: nat, slow: nat, signal: nat, c: real, i: nat)
    requires e.Valid() && fast >= 1 && slow >= 1 && signal >= 1 && i < e.Rows()
    requires forall k :: 0 <= k < e.Rows() ==> e.Close()[k] == Some(c)
    ensures Macd(e, fast, slow, signal).line[i] == Some(0.0)
    ensures Macd(e, fast, slow, signal).signal[i] == Some(0.0)
    ensures Macd(e, fast, slow, signal).histogram[i] == Some(0.0)
  {
    var m := Macd(e, fast, slow, signal);
    forall k | 0 <= k < e.Rows()
      ensures m.line[k] == Some(0.0)
    {
      EwmOfConstant(e.Close(), fast, c, k);
      EwmOfConstant(e.Close(), slow, c, k);
    }
    EwmOfConstant(m.line, signal, 0.0, i);
  }
}

=== FILE: pipeline.dfy ===
/** How the two components meet: bars laid out as a frame, handed to the engine. */
module Pipeline {
  import opened Wrappers
  import opened Columns
  import opened Frames
  import opened Ohlcv
  import opened TechnicalIndicators

  /**
    The engine accepts the frame of a bar list exactly when the list is not
    empty (an empty list's frame is rejected as empty), has one row per bar,
    and holds each bar's fields unchanged, since that frame has no NaN to fill.
   */
  lemma EngineFromData(d: Data)
    ensures ToDataFrame(d).WellFormed()
    ensures New(ToDataFrame(d)).Success? <==> |d.bars| > 0
    ensures |d.bars| == 0 ==> New(ToDataFrame(d)) == Failure(EmptyFrame)
    ensures New(ToDataFrame(d)).Success? ==>
              var e := New(ToDataFrame(d)).value;
              && e.Rows() == Length(d)
              && forall i :: 0 <= i < |d.bars| ==>
                   && e.Open()[i] == Some(d.bars[i].open)
                   && e.High()[i] == Some(d.bars[i].high)
                   && e.Low()[i] == Some(d.bars[i].low)
                   && e.Close()[i] == Some(d.bars[i].close)
                   && e.Volume()[i] == Some(d.bars[i].volume)
  {
    var df := ToDataFrame(d);
    assert HasRequiredColumns(df);
    if |d.bars| > 0 {
      var e := New(df).value;
      forall c | c in df.columns
        ensures e.df.columns[c] == df.columns[c]
      {
        FfillWithoutNaN(df.columns[c]);
      }
      assert e.df.columns == df.columns;
      assert e.df == df;
    }
  }

  /** Bars that passed validation give an engine whose every row meets the bar invariants. */
  lemma ValidatedBarsGiveValidRows(d: Data)
    requires |d.bars| > 0
    requires forall k :: 0 <= k < |d.bars| ==> ValidBar(d.bars[k])
    ensures New(ToDataFrame(d)).Success?
    ensures New(ToDataFrame(d)).value.ValidBars()
  {
    EngineFromData(d);
  }
}

=== FILE: rolling.dfy ===
/**
  pandas' trailing-window reductions `rolling(window=p).mean()`, `.max()`,
  `.min()` and `.std()` over a column with NaNs.
 */
module Rolling {
  import opened Wrappers
  import opened Columns
  import opened Stats

  /** An uninterpreted square root: all the model needs is that it is never negative. */
  ghost predicate IsRoot(sqrt: real -> real)
  {
    forall v :: 0.0 <= v ==> 0.0 <= sqrt(v)
  }

  function MeanAt(x: Column, i: nat, p: nat): (r: Option<real>)
    requires i < |x|
    ensures r.Some? <==> Window(x, i, p).Some?
  {
    match Window(x, i, p)
    case None => None
    case Some(w) => Some(Mean(w))
  }

  /** `rolling(window=p).mean()` */
  function RollingMean(x: Column, p: nat): (r: Column)
    ensures |r| == |x|
    ensures forall i :: 0 <= i < |x| ==> r[i] == MeanAt(x, i, p)
  {
    seq(|x|, i requires 0 <= i < |x| => MeanAt(x, i, p))
  }

  function MaxAt(x: Column, i: nat, p: nat): (r: Option<real>)
    requires i < |x|
    ensures r.Some? <==> Window(x, i, p).Some?
    ensures r.Some? ==> forall k :: i - p < k <= i ==> x[k].value <= r.value
    ensures r.Some? ==> exists k :: i - p < k <= i && x[k] == r
  {
    match Window(x, i, p)
    case None => None
    case Some(w) =>
      var m := MaxOf(w);
      assert forall k :: i - p < k <= i ==> x[k] == Some(w[k - (i + 1 - p)]);
      var j :| 0 <= j < |w| && w[j] == m;
      assert x[i + 1 - p + j] == Some(m);
      Some(m)
  }

  /** `rolling(window=p).max()` */
  function RollingMax(x: Column, p: nat): (r: Column)
    ensures |r| == |x|
    ensures forall i :: 0 <= i < |x| ==> r[i] == MaxAt(x, i, p)
  {
    seq(|x|, i requires 0 <= i < |x| => MaxAt(x, i, p))
  }

  function MinAt(x: Column, i: nat, p: nat): (r: Option<real>)
    requires i < |x|
    ensures r.Some? <==> Window(x, i, p).Some?
    ensures r.Some? ==> forall k :: i - p < k <= i ==> r.value <= x[k].value
    ensures r.Some? ==> exists k :: i - p < k <= i && x[k] == r
  {
    match Window(x, i, p)
    case None => None
    case Some(w) =>
      var m := MinOf(w);
      assert forall k :: i - p < k <= i ==> x[k] == Some(w[k - (i + 1 - p)]);
      var j :| 0 <= j < |w| && w[j] == m;
      assert x[i + 1 - p + j] == Some(m);
      Some(m)
  }

  /** `rolling(window=p).min()` */
  function RollingMin(x: Column, p: nat): (r: Column)
    ensures |r| == |x|
    ensures forall i :: 0 <= i < |x| ==> r[i] == MinAt(x, i, p)
  {
    seq(|x|, i requires 0 <= i < |x| => MinAt(x, i, p))
  }

  /** Sample standard deviation of one window; one observation is not enough. */
  function StdAt(x: Column, i: nat, p: nat, sqrt: real -> real): (r: Option<real>)
    requires i < |x|
    ensures r.Some? <==> Window(x, i, p).Some? && p >= 2
    ensures r.Some? ==> r == Some(sqrt(SampleVariance(Window(x, i, p).value)))
  {
    match Window(x, i, p)
    case None => None
    case Some(w) => if p >= 2 then Some(sqrt(SampleVariance(w))) else None
  }

  /** `rolling(window=p).std()` with pandas' default `ddof=1`. */
  function RollingStd(x: Column, p: nat, sqrt: real -> real): (r: Column)
    ensures |r| == |x|
    ensures forall i :: 0 <= i < |x| ==> r[i] == StdAt(x, i, p, sqrt)
  {
    seq(|x|, i requires 0 <= i < |x| => StdAt(x, i, p, sqrt))
  }

  // ---------------------------------------------------------------------------
  // properties
  // ---------------------------------------------------------------------------

  /**
    On a NaN-free column a rolling reduction with window `p` is undefined
    exactly at the first `p - 1` positions.
   */
  lemma RollingMeanWarmUp(x: Column, p: nat, i: nat)
    requires AllObserved(x) && p >= 1 && i < |x|
    ensures RollingMean(x, p)[i].None? <==> i < p - 1
  {
  }

  /** Over `p` observed values ending at `i`, the rolling mean is their mean. */
  lemma RollingMeanIsWindowMean(x: Column, p: nat, i: nat, w: seq<real>)
    requires i < |x| && 1 <= p <= i + 1 && |w| == p
    requires forall k :: 0 <= k < p ==> x[i + 1 - p + k] == Some(w[k])
    ensures RollingMean(x, p)[i] == Some(Mean(w))
  {
    WindowIs(x, i, p, w);
  }

  /**
    Where the rolling mean is defined, so are the rolling minimum and maximum,
    and the mean lies between them.
   */
  lemma RollingMeanBetweenMinAndMax(x: Column, p: nat, i: nat)
    requires i < |x|
    ensures RollingMean(x, p)[i].Some? <==> RollingMax(x, p)[i].Some?
    ensures RollingMean(x, p)[i].Some? <==> RollingMin(x, p)[i].Some?
    ensures RollingMean(x, p)[i].Some? ==>
              RollingMin(x, p)[i].value <= RollingMean(x, p)[i].value <= RollingMax(x, p)[i].value
  {
    match Window(x, i, p)
    case None =>
    case Some(w) =>
      MeanBetweenMinAndMax(w);
  }

  /** The rolling mean of a stretch bounded by `lo` and `hi` is bounded likewise. */
  lemma RollingMeanWithin(x: Column, p: nat, i: nat, lo: real, hi: real)
    requires i < |x|
    requires forall k :: i - p < k <= i && 0 <= k < |x| && x[k].Some? ==> lo <= x[k].value <= hi
    ensures RollingMean(x, p)[i].Some? ==> lo <= RollingMean(x, p)[i].value <= hi
  {
    match Window(x, i, p)
    case None =>
    case Some(w) =>
      forall k | 0 <= k < |w|
        ensures lo <= w[k] <= hi
      {
        assert x[i + 1 - p + k] == Some(w[k]);
      }
      MeanWithin(w, lo, hi);
  }

  /** A column with no negative value has no negative rolling mean. */
  lemma RollingMeanNonNegative(x: Column, p: nat, i: nat)
    requires i < |x|
    requires forall k :: 0 <= k < |x| && x[k].Some? ==> x[k].value >= 0.0
    ensures RollingMean(x, p)[i].Some? ==> RollingMean(x, p)[i].value >= 0.0
  {
    match Window(x, i, p)
    case None =>
    case Some(w) =>
      forall k | 0 <= k < |w|
        ensures w[k] >= 0.0
      {
        assert x[i + 1 - p + k] == Some(w[k]);
      }
      SumNonNegative(w);
  }

  /** ... and a positive one when the newest value of the window is positive. */
  lemma RollingMeanPositive(x: Column, p: nat, i: nat)
    requires i < |x|
    requires forall k :: 0 <= k < |x| && x[k].Some? ==> x[k].value >= 0.0
    requires x[i].Some? && x[i].value > 0.0
    ensures RollingMean(x, p)[i].Some? ==> RollingMean(x, p)[i].value > 0.0
  {
    match Window(x, i, p)
    case None =>
    case Some(w) =>
      forall k | 0 <= k < |w|
        ensures w[k] >= 0.0
      {
        assert x[i + 1 - p + k] == Some(w[k]);
      }
      WindowEndsAt(x, i, p);
      MeanPositive(w, p - 1);
  }

  /** The rolling standard deviation is never negative where it is defined. */
  lemma RollingStdNonNegative(x: Column, p: nat, sqrt: real -> real, i: nat)
    requires IsRoot(sqrt) && i < |x|
    ensures RollingStd(x, p, sqrt)[i].Some? ==> RollingStd(x, p, sqrt)[i].value >= 0.0
  {
  }

  /** Over `p >= 2` observed values ending at `i`, the rolling std is the root of their sample variance. */
  lemma RollingStdIsWindowDeviation(x: Column, p: nat, i: nat, w: seq<real>, sqrt: real -> real)
    requires i < |x| && 2 <= p <= i + 1 && |w| == p
    requires forall k :: 0 <= k < p ==> x[i + 1 - p + k] == Some(w[k])
    ensures RollingStd(x, p, sqrt)[i] == Some(sqrt(SampleVariance(w)))
  {
    WindowIs(x, i, p, w);
  }

  /**
    The deviations of 1 and 3 from their mean 2 square to 1 each; divided by
    `p - 1 = 1` rather than by `p = 2`, the variance is 2, not 1.
   */
  lemma RollingStdExample(sqrt: real -> real)
    ensures RollingStd([Some(1.0), Some(3.0)], 2, sqrt) == [None, Some(sqrt(2.0))]
  {
    var x := [Some(1.0), Some(3.0)];
    assert Sum([1.0, 3.0]) == 4.0 by {
      assert [1.0, 3.0][..1] == [1.0];
    }
    assert SquaredDeviation([1.0, 3.0], 2.0) == 2.0 by {
      assert [1.0, 3.0][..1] == [1.0];
      assert [1.0][..0] == [];
    }
    RollingStdIsWindowDeviation(x, 2, 1, [1.0, 3.0], sqrt);
    var r := RollingStd(x, 2, sqrt);
    assert r[0] == StdAt(x, 0, 2, sqrt);
  }

  /** With `window=1` the sample deviation has no degree of freedom left: always undefined. */
  lemma RollingStdOfOne(x: Column, sqrt: real -> real, i: nat)
    requires i < |x|
    ensures RollingStd(x, 1, sqrt)[i].None?
  {
  }

  lemma WindowIs(x: Column, i: nat, p: nat, w: seq<real>)
    requires i < |x| && 1 <= p <= i + 1 && |w| == p
    requires forall k :: 0 <= k < p ==> x[i + 1 - p + k] == Some(w[k])
    ensures Window(x, i, p) == Some(w)
  {
    assert forall k :: i - p < k <= i ==> x[k] == Some(w[k - (i + 1 - p)]);
    assert Window(x, i, p).Some?;
    var v := Window(x, i, p).value;
    assert forall k :: 0 <= k < p ==> v[k] == w[k];
    assert v == w;
  }

  /** SMA(3) of 1, 2, 3, 4, 5 is NaN, NaN, 2, 3, 4. */
  lemma RollingMeanExample()
    ensures RollingMean([Some(1.0), Some(2.0), Some(3.0), Some(4.0), Some(5.0)], 3)
         == [None, None, Some(2.0), Some(3.0), Some(4.0)]
  {
    var x := [Some(1.0), Some(2.0), Some(3.0), Some(4.0), Some(5.0)];
    var r := RollingMean(x, 3);
    assert Mean([1.0, 2.0, 3.0]) == 2.0 by {
      assert Sum([1.0, 2.0, 3.0]) == 6.0 by {
        assert [1.0, 2.0, 3.0][..2] == [1.0, 2.0];
        assert [1.0, 2.0][..1] == [1.0];
      }
    }
    assert Mean([2.0, 3.0, 4.0]) == 3.0 by {
      assert Sum([2.0, 3.0, 4.0]) == 9.0 by {
        assert [2.0, 3.0, 4.0][..2] == [2.0, 3.0];
        assert [2.0, 3.0][..1] == [2.0];
      }
    }
    assert Mean([3.0, 4.0, 5.0]) == 4.0 by {
      assert Sum([3.0, 4.0, 5.0]) == 12.0 by {
        assert [3.0, 4.0, 5.0][..2] == [3.0, 4.0];
        assert [3.0, 4.0][..1] == [3.0];
      }
    }
    assert r[0] == MeanAt(x, 0, 3) && r[1] == MeanAt(x, 1, 3);
    RollingMeanIsWindowMean(x, 3, 2, [1.0, 2.0, 3.0]);
    RollingMeanIsWindowMean(x, 3, 3, [2.0, 3.0, 4.0]);
    RollingMeanIsWindowMean(x, 3, 4, [3.0, 4.0, 5.0]);
  }

}

=== FILE: signals.dfy ===
/**
  `detect_velocity_signals`: nine boolean flags per bar derived from ROC(14),
  RSI(14), volume velocity(20), MACD(12, 26, 9) and Bollinger(20, 2.0). A
  comparison against NaN is false, so every flag is false where an input is
  undefined.
 */
module VelocitySignals {
  import opened Wrappers
  import opened Columns
  import opened Rolling
  import opened TechnicalIndicators
  import MomentumLaws
  import VolatilityLaws
  import VolumeLaws

  datatype Signals = Signals(
    strongUpwardMomentum: seq<bool>,
    strongDownwardMomentum: seq<bool>,
    overbought: seq<bool>,
    oversold: seq<bool>,
    highVolume: seq<bool>,
    macdBullish: seq<bool>,
    macdBearish: seq<bool>,
    priceAboveUpperBb: seq<bool>,
    priceBelowLowerBb: seq<bool>)

  const RocPeriod: nat := 14
  const RsiPeriod: nat := 14
  const VolumePeriod: nat := 20
  const BandPeriod: nat := 20
  const BandWidth: real := 2.0

  function RocLine(e: Engine): Column
    requires e.Valid()
  {
    RocOf(e.Close(), RocPeriod)
  }

  function MacdOf(e: Engine): MacdLines
    requires e.Valid()
  {
    Macd(e, 12, 26, 9)
  }

  function BandsOf(e: Engine, sqrt: real -> real): Bands
    requires e.Valid()
  {
    BollingerBands(e, BandPeriod, BandWidth, sqrt)
  }

  /** `detect_velocity_signals(roc_threshold, volume_multiplier)` */
  function DetectVelocitySignals(e: Engine, rocThreshold: real, volumeMultiplier: real, sqrt: real -> real): (s: Signals)
    requires e.Valid()
    ensures |s.strongUpwardMomentum| == |s.strongDownwardMomentum| == e.Rows()
    ensures |s.overbought| == |s.oversold| == |s.highVolume| == e.Rows()
    ensures |s.macdBullish| == |s.macdBearish| == e.Rows()
    ensures |s.priceAboveUpperBb| == |s.priceBelowLowerBb| == e.Rows()
  {
    var n := e.Rows();
    var roc := RocLine(e);
    var rsi := Rsi(e, RsiPeriod);
    var velocity := VolumeVelocity(e, VolumePeriod);
    var macd := MacdOf(e);
    var bands := BandsOf(e, sqrt);
    var close := e.Close();
    Signals(
      seq(n, i requires 0 <= i < n => Greater(roc[i], Some(rocThreshold))),
      seq(n, i requires 0 <= i < n => Less(roc[i], Some(-rocThreshold))),
      seq(n, i requires 0 <= i < n => Greater(rsi[i], Some(70.0))),
      seq(n, i requires 0 <= i < n => Less(rsi[i], Some(30.0))),
      seq(n, i requires 0 <= i < n => Greater(velocity[i], Some(volumeMultiplier))),
      seq(n, i requires 0 <= i < n => Greater(macd.line[i], macd.signal[i]) && Greater(macd.histogram[i], Some(0.0))),
      seq(n, i requires 0 <= i < n => Less(macd.line[i], macd.signal[i]) && Less(macd.histogram[i], Some(0.0))),
      seq(n, i requires 0 <= i < n => Greater(close[i], bands.upper[i])),
      seq(n, i requires 0 <= i < n => Less(close[i], bands.lower[i])))
  }

  /** The momentum flags read `roc(14)` of the close. */
  lemma RocLineIsRoc(e: Engine)
    requires e.Valid()
    ensures Roc(e, RocPeriod, "close") == Success(RocLine(e))
  {
    assert e.Close() == e.df.columns["close"];
  }

  /**
    The MACD flags: since the histogram is the line minus the signal, bullish
    holds exactly when the line is above the signal and bearish exactly when
    it is below; neither holds where either is NaN.
   */
  lemma MacdFlagsFollowTheLine(e: Engine, t: real, m: real, sqrt: real -> real, i: nat)
    requires e.Valid() && i < e.Rows()
    ensures var s := DetectVelocitySignals(e, t, m, sqrt);
            var macd := MacdOf(e);
      && (s.macdBullish[i] <==> macd.line[i].Some? && macd.signal[i].Some? && macd.line[i].value > macd.signal[i].value)
      && (s.macdBearish[i] <==> macd.line[i].Some? && macd.signal[i].Some? && macd.line[i].value < macd.signal[i].value)
  {
    var macd := MacdOf(e);
    assert macd.histogram[i] == Sub(macd.line[i], macd.signal[i]);
  }

  /**
    Opposite flags never fire together: the momentum pair for a non-negative
    threshold, the RSI pair, the MACD pair, and the band pair whenever the
    square root is non-negative.
   */
  lemma OppositeFlagsExclusive(e: Engine, t: real, m: real, sqrt: real -> real, i: nat)
    requires e.Valid() && i < e.Rows()
    ensures var s := DetectVelocitySignals(e, t, m, sqrt);
      && (t >= 0.0 ==> !(s.strongUpwardMomentum[i] && s.strongDownwardMomentum[i]))
      && !(s.overbought[i] && s.oversold[i])
      && !(s.macdBullish[i] && s.macdBearish[i])
      && (IsRoot(sqrt) ==> !(s.priceAboveUpperBb[i] && s.priceBelowLowerBb[i]))
  {
    var s := DetectVelocitySignals(e, t, m, sqrt);
    MacdFlagsFollowTheLine(e, t, m, sqrt, i);
    VolatilityLaws.BollingerBandsSymmetric(e, BandPeriod, BandWidth, sqrt, i);
  }

  /**
    When each of the seven threshold flags holds: its indicator is defined and
    strictly past the threshold (the MACD pair is stated by
    `MacdFlagsFollowTheLine`).
   */
  lemma FlagsReadTheirIndicators(e: Engine, t: real, m: real, sqrt: real -> real, i: nat)
    requires e.Valid() && i < e.Rows()
    ensures var s := DetectVelocitySignals(e, t, m, sqrt);
            var roc := RocLine(e);
            var rsi := Rsi(e, RsiPeriod);
            var velocity := VolumeVelocity(e, VolumePeriod);
            var bands := BandsOf(e, sqrt);
            var close := e.Close();
      && (s.strongUpwardMomentum[i] <==> roc[i].Some? && roc[i].value > t)
      && (s.strongDownwardMomentum[i] <==> roc[i].Some? && roc[i].value < -t)
      && (s.overbought[i] <==> rsi[i].Some? && rsi[i].value > 70.0)
      && (s.oversold[i] <==> rsi[i].Some? && rsi[i].value < 30.0)
      && (s.highVolume[i] <==> velocity[i].Some? && velocity[i].value > m)
      && (s.priceAboveUpperBb[i] <==> close[i].Some? && bands.upper[i].Some? && close[i].value > bands.upper[i].value)
      && (s.priceBelowLowerBb[i] <==> close[i].Some? && bands.lower[i].Some? && close[i].value < bands.lower[i].value)
  {
  }

  /**
    A comparison with NaN is false: wherever an indicator is undefined, the
    flags that read it are false, and so are the band flags where the close is.
   */
  lemma FlagsAreFalseWhereUndefined(e: Engine, t: real, m: real, sqrt: real -> real, i: nat)
    requires e.Valid() && i < e.Rows()
    ensures var s := DetectVelocitySignals(e, t, m, sqrt);
      && (RocLine(e)[i].None? ==> !s.strongUpwardMomentum[i] && !s.strongDownwardMomentum[i])
      && (Rsi(e, RsiPeriod)[i].None? ==> !s.overbought[i] && !s.oversold[i])
      && (VolumeVelocity(e, VolumePeriod)[i].None? ==> !s.highVolume[i])
      && (MacdOf(e).line[i].None? || MacdOf(e).signal[i].None? ==> !s.macdBullish[i] && !s.macdBearish[i])
      && (BandsOf(e, sqrt).upper[i].None? || e.Close()[i].None? ==> !s.priceAboveUpperBb[i])
      && (BandsOf(e, sqrt).lower[i].None? || e.Close()[i].None? ==> !s.priceBelowLowerBb[i])
  {
    var s := DetectVelocitySignals(e, t, m, sqrt);
    MacdFlagsFollowTheLine(e, t, m, sqrt, i);
    assert s.overbought[i] == Greater(Rsi(e, RsiPeriod)[i], Some(70.0));
    assert s.oversold[i] == Less(Rsi(e, RsiPeriod)[i], Some(30.0));
    assert s.highVolume[i] == Greater(VolumeVelocity(e, VolumePeriod)[i], Some(m));
    assert s.priceAboveUpperBb[i] == Greater(e.Close()[i], BandsOf(e, sqrt).upper[i]);
    assert s.priceBelowLowerBb[i] == Less(e.Close()[i], BandsOf(e, sqrt).lower[i]);
  }

  /**
    Each indicator's own warm-up: ROC(14) has no value before bar 14, RSI(14)
    none before bar 13, and volume velocity(20) and the 20-bar bands none
    before bar 19.
   */
  lemma IndicatorsWarmUp(e: Engine, sqrt: real -> real, i: nat)
    requires e.Valid() && i < e.Rows()
    ensures i < RocPeriod ==> RocLine(e)[i].None?
    ensures i < RsiPeriod - 1 ==> Rsi(e, RsiPeriod)[i].None?
    ensures i < VolumePeriod - 1 ==> VolumeVelocity(e, VolumePeriod)[i].None?
    ensures i < BandPeriod - 1 ==> BandsOf(e, sqrt).upper[i].None? && BandsOf(e, sqrt).lower[i].None?
  {
    if i < RsiPeriod - 1 {
      MomentumLaws.RsiWarmUp(e, RsiPeriod, i);
    }
    if i < VolumePeriod - 1 {
      VolumeLaws.VolumeVelocityIsRatio(e, VolumePeriod, i);
      assert VolumeSma(e, VolumePeriod)[i] == MeanAt(e.Volume(), i, VolumePeriod);
    }
    if i < BandPeriod - 1 {
      VolatilityLaws.BollingerBandsSymmetric(e, BandPeriod, BandWidth, sqrt, i);
      assert RollingStd(e.Close(), BandPeriod, sqrt)[i] == StdAt(e.Close(), i, BandPeriod, sqrt);
    }
  }

  /** During each indicator's warm-up its flags are false rather than undefined. */
  lemma WarmUpFlagsAreFalse(e: Engine, t: real, m: real, sqrt: real -> real, i: nat)
    requires e.Valid() && i < e.Rows()
    ensures var s := DetectVelocitySignals(e, t, m, sqrt);
      && (i < RocPeriod ==> !s.strongUpwardMomentum[i] && !s.strongDownwardMomentum[i])
      && (i < RsiPeriod - 1 ==> !s.overbought[i] && !s.oversold[i])
      && (i < VolumePeriod - 1 ==> !s.highVolume[i])
      && (i < BandPeriod - 1 ==> !s.priceAboveUpperBb[i] && !s.priceBelowLowerBb[i])
  {
    IndicatorsWarmUp(e, sqrt, i);
    FlagsAreFalseWhereUndefined(e, t, m, sqrt, i);
  }
}

=== FILE: stats.dfy ===
/** Reductions over one fully observed trailing window of reals. */
module Stats {
  import opened Algebra

  function Sum(w: seq<real>): real
  {
    if |w| == 0 then 0.0 else Sum(w[..|w| - 1]) + w[|w| - 1]
  }

  function Mean(w: seq<real>): real
    requires |w| > 0
  {
    Sum(w) / (|w| as real)
  }

  /** Largest element of a non-empty window (`rolling(...).max()`). */
  function MaxOf(w: seq<real>): (m: real)
    requires |w| > 0
    ensures forall k :: 0 <= k < |w| ==> w[k] <= m
    ensures m in w
  {
    if |w| == 1 then w[0]
    else
      var m := MaxOf(w[..|w| - 1]);
      assert w == w[..|w| - 1] + [w[|w| - 1]];
      if w[|w| - 1] > m then w[|w| - 1] else m
  }

  /** Smallest element of a non-empty window (`rolling(...).min()`). */
  function MinOf(w: seq<real>): (m: real)
    requires |w| > 0
    ensures forall k :: 0 <= k < |w| ==> m <= w[k]
    ensures m in w
  {
    if |w| == 1 then w[0]
    else
      var m := MinOf(w[..|w| - 1]);
      assert w == w[..|w| - 1] + [w[|w| - 1]];
      if w[|w| - 1] < m then w[|w| - 1] else m
  }

  /** Sum of squared deviations of the window from `c`; never negative. */
  function SquaredDeviation(w: seq<real>, c: real): (r: real)
    ensures r >= 0.0
  {
    if |w| == 0 then 0.0
    else
      var d := w[|w| - 1] - c;
      SquareNonNegative(d);
      SquaredDeviation(w[..|w| - 1], c) + d * d
  }

  lemma SquareNonNegative(d: real)
    ensures d * d >= 0.0
  {
    if d < 0.0 {
      assert d * d == (-d) * (-d);
    }
  }

  /** Sample variance (pandas' default `ddof=1`): needs two observations. */
  function SampleVariance(w: seq<real>): (v: real)
    requires |w| >= 2
    ensures v >= 0.0
    ensures v * ((|w| - 1) as real) == SquaredDeviation(w, Mean(w))
  {
    SquaredDeviation(w, Mean(w)) / ((|w| - 1) as real)
  }

  /** Bounds on every element bound the sum: `n * lo <= Sum(w) <= n * hi`. */
  lemma {:induction false} SumBounds(w: seq<real>, lo: real, hi: real)
    requires forall k :: 0 <= k < |w| ==> lo <= w[k] <= hi
    ensures (|w| as real) * lo <= Sum(w) <= (|w| as real) * hi
  {
    if |w| > 0 {
      var n := |w| - 1;
      SumBounds(w[..n], lo, hi);
      assert (n as real) * lo + lo == (|w| as real) * lo;
      assert (n as real) * hi + hi == (|w| as real) * hi;
    }
  }

  /** The mean of a window lies between its minimum and its maximum. */
  lemma MeanBetweenMinAndMax(w: seq<real>)
    requires |w| > 0
    ensures MinOf(w) <= Mean(w) <= MaxOf(w)
  {
    MeanWithin(w, MinOf(w), MaxOf(w));
  }

  /** Every element of the window at least `lo` (at most `hi`) pins the mean likewise. */
  lemma MeanWithin(w: seq<real>, lo: real, hi: real)
    requires |w| > 0
    requires forall k :: 0 <= k < |w| ==> lo <= w[k] <= hi
    ensures lo <= Mean(w) <= hi
  {
    SumBounds(w, lo, hi);
    DivBetween(Sum(w), |w| as real, lo, hi);
  }

  /** A window of non-negative values with one positive value has a positive sum. */
  lemma {:induction false} SumPositive(w: seq<real>, j: nat)
    requires forall k :: 0 <= k < |w| ==> w[k] >= 0.0
    requires j < |w| && w[j] > 0.0
    ensures Sum(w) > 0.0
  {
    var n := |w| - 1;
    if j == n {
      SumNonNegative(w[..n]);
    } else {
      SumPositive(w[..n], j);
    }
  }

  /** ... and hence a positive mean. */
  lemma MeanPositive(w: seq<real>, j: nat)
    requires forall k :: 0 <= k < |w| ==> w[k] >= 0.0
    requires j < |w| && w[j] > 0.0
    ensures Mean(w) > 0.0
  {
    SumPositive(w, j);
    var n := |w| as real;
    var m := Mean(w);
    assert m * n == Sum(w);
  }

  lemma {:induction false} SumNonNegative(w: seq<real>)
    requires forall k :: 0 <= k < |w| ==> w[k] >= 0.0
    ensures Sum(w) >= 0.0
  {
    if |w| > 0 {
      SumNonNegative(w[..|w| - 1]);
    }
  }
}

=== FILE: volatility_laws.dfy ===
/** Properties of the Bollinger bands and of the average true range. */
module VolatilityLaws {
  import opened Wrappers
  import opened Columns
  import opened Stats
  import opened Rolling
  import opened Algebra
  import opened TechnicalIndicators

  // ===========================================================================
  // Bollinger bands
  // ===========================================================================

  lemma BandOfValues(m: Option<real>, sd: Option<real>, k: real)
    ensures Add(m, Scale(sd, k)).Some? <==> m.Some? && sd.Some?
    ensures Sub(m, Scale(sd, k)).Some? <==> m.Some? && sd.Some?
    ensures m.Some? && sd.Some? ==>
              Add(m, Scale(sd, k)).value - m.value == m.value - Sub(m, Scale(sd, k)).value
    ensures m.Some? && sd.Some? && sd.value >= 0.0 && k >= 0.0 ==>
              Add(m, Scale(sd, k)).value >= m.value >= Sub(m, Scale(sd, k)).value
  {
    if sd.Some? && sd.value >= 0.0 && k >= 0.0 {
      ProductNonNegative(sd.value, k);
    }
  }

  /** The middle band is `sma(period)` of the close. */
  lemma BollingerMiddleIsSma(e: Engine, period: nat, stdDev: real, sqrt: real -> real)
    requires e.Valid()
    ensures Sma(e, period, "close") == Success(BollingerBands(e, period, stdDev, sqrt).middle)
  {
    assert e.Close() == e.df.columns["close"];
  }

  /**
    Both outer bands are defined exactly where the rolling standard deviation
    is, sit symmetrically around the middle band, and are ordered
    upper >= middle >= lower for a non-negative multiplier.
   */
  lemma BollingerBandsSymmetric(e: Engine, period: nat, stdDev: real, sqrt: real -> real, i: nat)
    requires e.Valid() && i < e.Rows()
    ensures var b := BollingerBands(e, period, stdDev, sqrt);
      && (b.upper[i].Some? <==> RollingStd(e.Close(), period, sqrt)[i].Some?)
      && (b.lower[i].Some? <==> RollingStd(e.Close(), period, sqrt)[i].Some?)
      && (b.upper[i].Some? ==> b.middle[i].Some? && b.upper[i].value - b.middle[i].value == b.middle[i].value - b.lower[i].value)
      && (b.upper[i].Some? && IsRoot(sqrt) && stdDev >= 0.0 ==>
            b.upper[i].value >= b.middle[i].value >= b.lower[i].value)
  {
    var b := BollingerBands(e, period, stdDev, sqrt);
    var std := RollingStd(e.Close(), period, sqrt);
    assert b.upper[i] == Add(b.middle[i], Scale(std[i], stdDev));
    assert b.lower[i] == Sub(b.middle[i], Scale(std[i], stdDev));
    if IsRoot(sqrt) {
      RollingStdNonNegative(e.Close(), period, sqrt, i);
    }
    BandOfValues(b.middle[i], std[i], stdDev);
  }

  /** With `period=1` the sample deviation is NaN, and so are both outer bands. */
  lemma BollingerBandsOfPeriodOne(e: Engine, stdDev: real, sqrt: real -> real, i: nat)
    requires e.Valid() && i < e.Rows()
    ensures BollingerBands(e, 1, stdDev, sqrt).upper[i].None?
    ensures BollingerBands(e, 1, stdDev, sqrt).lower[i].None?
  {
    BollingerBandsSymmetric(e, 1, stdDev, sqrt, i);
    RollingStdOfOne(e.Close(), sqrt, i);
  }

  /**
    Over a fully observed window of closes `w`, the middle band is the window's
    mean and the outer bands lie `stdDev` sample standard deviations above
    and below it.
   */
  lemma BollingerBandsOfWindow(e: Engine, p: nat, stdDev: real, sqrt: real -> real, i: nat, w: seq<real>)
    requires e.Valid() && i < e.Rows() && 2 <= p <= i + 1 && |w| == p
    requires forall k :: 0 <= k < p ==> e.Close()[i + 1 - p + k] == Some(w[k])
    ensures BollingerBands(e, p, stdDev, sqrt).middle[i] == Some(Mean(w))
    ensures var upper := BollingerBands(e, p, stdDev, sqrt).upper[i];
              upper.Some? && upper.value == Mean(w) + sqrt(SampleVariance(w)) * stdDev
    ensures var lower := BollingerBands(e, p, stdDev, sqrt).lower[i];
              lower.Some? && lower.value == Mean(w) - sqrt(SampleVariance(w)) * stdDev
  {
    var b := BollingerBands(e, p, stdDev, sqrt);
    var sd := RollingStd(e.Close(), p, sqrt);
    assert b.middle[i] == Some(Mean(w)) by {
      RollingMeanIsWindowMean(e.Close(), p, i, w);
    }
    assert sd[i] == Some(sqrt(SampleVariance(w))) by {
      RollingStdIsWindowDeviation(e.Close(), p, i, w, sqrt);
    }
    assert b.upper[i] == Add(b.middle[i], Scale(sd[i], stdDev));
    assert b.lower[i] == Sub(b.middle[i], Scale(sd[i], stdDev));
  }


  // ===========================================================================
  // average true range
  // ===========================================================================

  /**
    The true range is defined wherever high and low are, is at least
    high - low, and on the first bar, which has no previous close, is exactly
    high - low.
   */
  lemma TrueRangeCoversSpread(e: Engine, i: nat)
    requires e.Valid() && i < e.Rows()
    ensures e.High()[i].Some? && e.Low()[i].Some? ==>
              TrueRange(e)[i].Some? && TrueRange(e)[i].value >= e.High()[i].value - e.Low()[i].value
    ensures i == 0 ==> TrueRange(e)[0] == Sub(e.High()[0], e.Low()[0])
  {
    var prevClose := Shift(e.Close(), 1);
    var h := e.High()[i];
    var l := e.Low()[i];
    assert TrueRange(e)[i] == MaxSkipNaN(Sub(h, l), MaxSkipNaN(Abs(Sub(h, prevClose[i])), Abs(Sub(l, prevClose[i]))));
  }

  /** Over valid bars the average true range is never negative, and has only the usual warm-up. */
  lemma AtrNonNegative(e: Engine, period: nat, i: nat)
    requires e.Valid() && e.ValidBars() && i < e.Rows()
    ensures Atr(e, period)[i].Some? <==> 1 <= period <= i + 1
    ensures Atr(e, period)[i].Some? ==> Atr(e, period)[i].value >= 0.0
  {
    var tr := TrueRange(e);
    forall k | 0 <= k < |tr|
      ensures tr[k].Some? && tr[k].value >= 0.0
    {
      TrueRangeCoversSpread(e, k);
    }
    RollingMeanNonNegative(tr, period, i);
  }

  /** Over a fully observed window `w` of true ranges, ATR is the window's mean. */
  lemma AtrOfWindow(e: Engine, p: nat, i: nat, w: seq<real>)
    requires e.Valid() && i < e.Rows() && 1 <= p <= i + 1 && |w| == p
    requires forall k :: 0 <= k < p ==> TrueRange(e)[i + 1 - p + k] == Some(w[k])
    ensures Atr(e, p)[i] == Some(Mean(w))
  {
    RollingMeanIsWindowMean(TrueRange(e), p, i, w);
  }
}

=== FILE: volume_laws.dfy ===
/** Properties of the volume indicators: volume velocity and on-balance volume. */
module VolumeLaws {
  import opened Wrappers
  import opened Columns
  import opened Rolling
  import opened Algebra
  import opened TechnicalIndicators

  // ===========================================================================
  // volume velocity
  // ===========================================================================

  /** `ratio * base == value`: the ratio scales the base back to the value. */
  predicate Restores(ratio: real, base: real, value: real)
  {
    ratio * base == value
  }

  lemma RatioOfValues(a: Option<real>, b: Option<real>)
    ensures Div(a, b).Some? <==> a.Some? && b.Some? && b.value != 0.0
    ensures Div(a, b).Some? ==> Restores(Div(a, b).value, b.value, a.value)
    ensures Div(a, b).Some? && a.value >= 0.0 && b.value >= 0.0 ==> Div(a, b).value >= 0.0
  {
    if Div(a, b).Some? && a.value >= 0.0 && b.value >= 0.0 {
      DivBetween(a.value, b.value, 0.0, a.value / b.value);
    }
  }

  /**
    Volume velocity times the volume moving average gives back the volume,
    wherever the ratio is defined.
   */
  lemma VolumeVelocityIsRatio(e: Engine, period: nat, i: nat)
    requires e.Valid() && i < e.Rows()
    ensures VolumeVelocity(e, period)[i].Some? <==>
              e.Volume()[i].Some? && VolumeSma(e, period)[i].Some? && VolumeSma(e, period)[i].value != 0.0
    ensures VolumeVelocity(e, period)[i].Some? ==>
              Restores(VolumeVelocity(e, period)[i].value, VolumeSma(e, period)[i].value, e.Volume()[i].value)
  {
    var v := e.Volume()[i];
    var a := VolumeSma(e, period)[i];
    assert VolumeVelocity(e, period)[i] == Div(v, a);
    RatioOfValues(v, a);
  }

  /** Over valid bars volume velocity is never negative. */
  lemma VolumeVelocityNonNegative(e: Engine, period: nat, i: nat)
    requires e.Valid() && e.ValidBars() && i < e.Rows()
    ensures VolumeVelocity(e, period)[i].Some? ==> VolumeVelocity(e, period)[i].value >= 0.0
  {
    var v := e.Volume()[i];
    var a := VolumeSma(e, period)[i];
    assert VolumeVelocity(e, period)[i] == Div(v, a);
    RollingMeanNonNegative(e.Volume(), period, i);
    RatioOfValues(v, a);
  }

  // ===========================================================================
  // on-balance volume
  // ===========================================================================

  /** The volume bar `k` adds to the running total: signed by the close's move, 0 if flat. */
  function SignedVolume(close: Column, volume: Column, k: nat): real
    requires |close| == |volume| && AllObserved(volume) && 1 <= k < |close|
  {
    if Greater(close[k], close[k - 1]) then volume[k].value
    else if Less(close[k], close[k - 1]) then -volume[k].value
    else 0.0
  }

  /** Total signed volume of bars `1..i`. */
  function SignedVolumeSum(close: Column, volume: Column, i: nat): real
    requires |close| == |volume| && AllObserved(volume) && i < |close|
  {
    if i == 0 then 0.0 else SignedVolumeSum(close, volume, i - 1) + SignedVolume(close, volume, i)
  }

  /**
    With every volume observed, OBV is the first volume plus the signed
    volumes of the later bars: the scan computes a prefix sum.
   */
  lemma {:induction false} ObvIsPrefixSum(close: Column, volume: Column, i: nat)
    requires |close| == |volume| && AllObserved(volume) && i < |close|
    ensures ObvAt(close, volume, i) == Some(volume[0].value + SignedVolumeSum(close, volume, i))
  {
    if i > 0 {
      ObvIsPrefixSum(close, volume, i - 1);
    }
  }

  /** A close that never changes leaves OBV at the first bar's volume. */
  lemma {:induction false} ObvOfFlatClose(close: Column, volume: Column, i: nat)
    requires |close| == |volume| && i < |close|
    requires forall k :: 0 <= k < |close| ==> close[k] == close[0]
    ensures ObvAt(close, volume, i) == volume[0]
  {
    if i > 0 {
      ObvOfFlatClose(close, volume, i - 1);
    }
  }

  /** Strictly rising closes with positive volumes make OBV strictly increasing. */
  lemma ObvOfRisingClose(close: Column, volume: Column, i: nat)
    requires |close| == |volume| && 1 <= i < |close|
    requires StrictlyRising(close)
    requires AllObserved(volume) && forall k :: 0 <= k < |volume| ==> volume[k].value > 0.0
    ensures ObvAt(close, volume, i - 1).Some? && ObvAt(close, volume, i).Some?
    ensures ObvAt(close, volume, i - 1).value < ObvAt(close, volume, i).value
  {
    ObvIsPrefixSum(close, volume, i - 1);
    ObvIsPrefixSum(close, volume, i);
  }
}

=== FILE: wrappers.dfy ===
/** Optional values and success-or-error outcomes, shared by every module of the model. */
module Wrappers {

  /** `None` plays the part of pandas' NaN marker in a column. */
  datatype Option<+T> = None | Some(value: T)

  /** The outcome of an operation that can raise `ValueError`. */
  datatype Result<+T, +E> = Success(value: T) | Failure(error: E)
}
